=== FILE: README.md ===
# pip: editable requirements, install locations and `pip install` options

A Dafny model of three pieces of pure decision logic inside pip, the
Python package installer, with proofs of what each promises.

- **Editable requirements** (`pip/req/req_install.py`). `parse_editable`
  turns `svn+http://host/repo/trunk#egg=Foo-dev` into a package name, a
  version-control URL and an option map. The model also covers its helpers
  `_strip_postfix`, `_build_req_from_url` and `_build_editable_options`, and
  the small pure helpers of `InstallRequirement`: `egg_info_lines`,
  `requirements`, `_clean_zip_name`, the `prereleases` flag and
  `build_location`. Every regular expression is modelled exactly, down to
  Python's `.` not matching a line feed and `$` also matching before a final
  line feed.
- **Locations** (`pip/locations.py`). This covers virtualenv detection, the
  no-global-site-packages flag, the per-user build prefix and its ownership
  check, the build and source prefixes, the platform-specific script,
  config and log paths, and the post-processing in `distutils_scheme`.
  The interpreter (`sys`) and the machine (`os`, `pwd`, `tempfile`, `site`)
  are input records.
- **`pip install`** (`InstallCommand.run` in `pip/commands/install.py`).
  This covers how the options are normalised, the `--user` and `--target`
  checks, the index URL list and the deprecation notices. It also covers
  which steps `run` takes, including whether it cleans up.

Python exceptions become `Err` values of `Common.Result`. Filesystem
probes are a `Common.FileSystem` value. The VCS backend registry is the
sequence of its names. Directory creation, `mkdtemp`, the password
database and `is_prerelease` are parameters.

Modules: `Common` (option, result, errors, filesystem), `Text` (Python
string operations and POSIX `os.path.join`), `Editable`, `EggInfo`,
`InstallReq`, `Locations`, `InstallCommand`.

## Model

| member | source | states |
|---|---|---|
| Editable.StripPostfix | pip/req/req_install.py:942-951 | The result is always a prefix of the input. It equals the input exactly when no `-dev`/`-<digit>…` postfix (running to the end of the string) follows any line-feed-free prefix. Otherwise it is the shortest such prefix. |
| Editable.StripExtras | pip/req/req_install.py:993-999 | Either the input comes back with no extras because no `[...]` group can end it, or the group starts at the last position where `(.+)(\[[^\]]+\])$` can split it. The two parts put together are the input up to `$`. |
| Editable.MatchAtComplete | pip/req/req_install.py:972 | Trying the option pattern where any match starts yields exactly that match, because both groups are greedy runs of non-`&`/`=` characters. |
| Editable.ScanOptions | pip/req/req_install.py:972-973 | `findall`: every result is a real match, the results are ordered and non-overlapping, and every position where the pattern matches lies inside a returned match. |
| Editable.ScanSkipsPosition | pip/req/req_install.py:973 | Where the pattern fails, no match starts there, so the scan resuming one position later misses nothing. |
| Editable.ScanTakesMatch | pip/req/req_install.py:973 | After taking a match, the scan misses nothing by resuming at that match's end. |
| Editable.CollectOptions | pip/req/req_install.py:975-982 | It succeeds exactly when the names are distinct. The map then holds exactly the matched names, each with its value. On failure the error names the first match whose name was already seen. |
| Editable.EditableOptions | pip/req/req_install.py:966-983 | The result is `None` exactly when the pattern matches nowhere, and an error exactly when a name repeats. That error names the first match whose name was already seen. Otherwise the map holds exactly the names `findall` returns, each with its value. |
| Editable.NonEmpty | pip/req/req_install.py:956 | Every kept segment is non-empty and one of the inputs, every non-empty input is kept, and the result is no longer than the input. Order and multiplicity are fixed by `NonEmptySnoc`. |
| Editable.NonEmptySnoc | pip/req/req_install.py:956 | Appending a segment keeps what was kept before and adds that segment after it exactly when it is non-empty. With `NonEmpty([]) == []` this fixes the whole filtered list. |
| Editable.NonEmptyDropsTrailingEmpty | pip/req/req_install.py:956 | Filtering out empty segments ignores a trailing empty one. |
| Editable.NonEmptyAppend | pip/req/req_install.py:956 | Filtering out empty segments commutes with concatenation, so the remaining segments keep their order. |
| Editable.UrlSegments | pip/req/req_install.py:956 | The segments are exactly the non-empty `/`-separated pieces of the URL before its first `#`. None of them contains `/`. |
| Editable.BuildReqFromUrl | pip/req/req_install.py:954-963 | The case table: the segment above `tags`/`branches`/`tag`/`branch`, else the segment above a final `trunk`, else `None`. Too few segments give the `IndexError`. A name is non-empty and has no `/`. |
| Editable.BuildReqIgnoresFragment | pip/req/req_install.py:956 | Appending `#fragment` to a URL without `#` never changes the derived name. |
| Editable.BuildReqIgnoresTrailingSlash | pip/req/req_install.py:956 | A trailing `/` never changes the derived name. |
| Editable.LocalUrl | pip/req/req_install.py:1001-1008 | A directory without `setup.py` is an error. A directory with one becomes its own `file://` URL. Anything else is unchanged. |
| Editable.PathToUrl | pip/req/req_install.py:1008 | The URL is `file://` followed by the path, and nothing else. |
| Editable.AddVcsScheme | pip/req/req_install.py:1022-1025 | The URL is unchanged exactly when no backend's `<vc>:` begins it (in any case). Otherwise it becomes `<vc>+url` for the first such backend in registry order. |
| Editable.VcsUrl | pip/req/req_install.py:1022-1043 | A successful URL contains `+`, names a registered backend and ends with the editable string. Without `+` and without a truthy default it is `NotVcsUrl`. With a truthy default the URL becomes `<default>+<editable>`. Either way, a backend type the registry does not know is `UnsupportedVcs`. |
| Editable.PackageName | pip/req/req_install.py:1051-1061 | The name is the `egg` option when present, else the name from the URL path, which must exist. Either way it goes through `_strip_postfix`, and URL errors propagate. |
| Editable.ParseEditable | pip/req/req_install.py:986-1062 | A local project or `file:` URL (any case) gives no name, that URL and the extras text. Otherwise it succeeds exactly when the VCS URL, the options and the package name all succeed. The result is then the name, the VCS URL and the options of the whole editable string. On failure the error comes from the first failing step, in the order VCS URL, options, name. |
| Editable.FileUrlIgnoresVcs | pip/req/req_install.py:1010-1020 | For a `file:` location the default backend and the registry make no difference, and parsing succeeds in the model. The source can still raise on malformed extras (see "## Left out"). |
| Editable.EggFragmentOption | pip/req/req_install.py:966-983 | For `<url>#egg=<name>`, with no other `?`, `#` or `&`, the options are exactly `{egg: name}`. |
| Editable.EggFragmentNamesPackage | pip/req/req_install.py:1022-1062 | Once such an editable is a version-control URL, it parses to the package `name` with its version postfix stripped, that URL and the `egg` option. |
| Text.Strip | pip/req/req_install.py:434 | `str.strip()`: the result is the slice between leading and trailing whitespace, and it neither starts nor ends with whitespace. |
| Text.SplitByRejoin | pip/req/req_install.py:433 | Splitting loses nothing: there is one more piece than cut characters, and putting the cut characters back between the pieces gives the text. |
| Text.SplitByAppend | pip/req/req_install.py:433 | Splitting two texts joined by a separator gives the pieces of the first followed by those of the second. |
| Text.PathJoin | pip/req/req_install.py:206 | POSIX `os.path.join`: an absolute second part replaces the first. Otherwise the second part is placed inside the first, with a `/` between them only when the first is non-empty and does not already end with one. |
| Text.PathJoinBasename | pip/locations.py:114-117 | Joining a non-empty file name onto a non-empty directory gives a path whose last `/`-separated piece is that name. |
| EggInfo.SplitLines | pip/req/req_install.py:433 | No resulting line contains a line boundary, and putting the boundaries back between the lines gives the text. |
| EggInfo.KeptLines | pip/req/req_install.py:433-437 | Exactly the non-empty lines that do not start with `#` are kept. |
| EggInfo.KeptLinesAppend | pip/req/req_install.py:433-437 | Filtering commutes with concatenation, so the original order is kept. |
| EggInfo.EggInfoLines | pip/req/req_install.py:428-438 | A missing or empty file gives nothing. Otherwise the result is the file's lines, stripped, in order and with repetitions, minus the empty ones and `#` comments. No returned line starts or ends with whitespace. |
| EggInfo.EggInfoLinesAppend | pip/req/req_install.py:428-438 | The lines of two texts joined at a line boundary are the lines of the first followed by those of the second. |
| EggInfo.SectionHeader | pip/req/req_install.py:464 | `\[(.*?)\]` on the lower-cased line: the name runs up to the first `]` and holds no `]` or line feed. A result needs a line starting with `[`. For such a line, no result means every `]` is preceded by a line feed. |
| EggInfo.RequirementsFromYieldsLines | pip/req/req_install.py:462-472 | The loop never yields a header line, and yields only lines of its input. |
| EggInfo.RequirementsFromStep | pip/req/req_install.py:463-472 | One loop turn yields what the current section and line allow, then continues in the section the line switches to. |
| EggInfo.RequirementsFromSelects | pip/req/req_install.py:462-472 | Started at any line in the section that line falls under, the loop yields exactly the lines the independent definition selects from there on. A selected line is not a header and lies under no section or a requested one. |
| EggInfo.EmittedIsSelected | pip/req/req_install.py:466-472 | At each line the loop yields that line exactly when the independent definition selects it. |
| EggInfo.SelectedFromMembers | pip/req/req_install.py:462-472 | A line is among the selected ones exactly when it is selected at some position. |
| EggInfo.Requirements | pip/req/req_install.py:457-472 | `requirements(extras)` equals the selected lines of `requires.txt` in file order, and never yields a header. |
| EggInfo.UnrequestedSectionSkipped | pip/req/req_install.py:468-471 | A line whose every occurrence lies under a named section that was not requested never comes out of `requirements`. |
| InstallReq.CleanZipName | pip/req/req_install.py:714-720 | Its length is `len(name) - len(prefix) - 1`. Each character is the one after the prefix and separator, with separators turned into `/`. |
| InstallReq.CleanZipNameRoundTrip | pip/req/req_install.py:714-720 | When the separator is `/`, or `name` holds no `/` of its own, putting the prefix and separator back and turning `/` back into the separator gives `name` again. Otherwise a `/` in the name would come back as the separator. |
| InstallReq.AnyPrerelease | pip/req/req_install.py:76-79 | True exactly when some specifier other than `!=` names a pre-release. |
| InstallReq.Prereleases | pip/req/req_install.py:73-81 | The flag is set exactly when asked for, or when the requirement has a specifier other than `!=` naming a pre-release. |
| InstallReq.ExclusionsIgnored | pip/req/req_install.py:76-79 | Adding an `!=` specifier never changes the flag. |
| InstallReq.BuildLocation | pip/req/req_install.py:191-206 | A remembered temporary directory is returned unchanged. A requirement without a name gets the fresh temporary directory, remembered along with the ideal build dir. A named one gets the name (lower-cased when editable) placed directly inside `build_dir`, and the build dir is created exactly when it is missing. |
| InstallReq.BuildLocationStable | pip/req/req_install.py:191-206 | A second call returns the same location, whatever build dir it is given once a temporary directory was chosen. |
| Locations.Head | pip/locations.py:201 | `s[:n]` is a prefix of `s` of length `min(n, len(s))`. |
| Locations.HeadIsPrefixTest | pip/locations.py:201 | Comparing `s[:len(p)]` with `p` is the prefix test. |
| Locations.RunningUnderVirtualenv | pip/locations.py:79-89 | True whenever `real_prefix` exists. Otherwise true exactly when `base_prefix` exists and differs from `prefix`. |
| Locations.VirtualenvNoGlobal | pip/locations.py:92-101 | True exactly when running under a virtualenv and the marker file is in the `site` module directory. |
| Locations.NoGlobalNeedsVirtualenv | pip/locations.py:92-101 | Outside a virtualenv the flag is never set, marker or not. |
| Locations.Username | pip/locations.py:104-109 | The login name on Windows, else the password entry of the effective uid, or a `KeyError` when there is none. |
| Locations.BuildDirName | pip/locations.py:114-117 | The name is `pip_build_` followed by the user name with every space turned into `_`, so it holds no space. |
| Locations.BuildDirPath | pip/locations.py:114-117 | The path is the build directory name placed directly inside the temp dir. |
| Locations.BuildPrefixSpacesShared | pip/locations.py:114-117 | User names that differ only in spaces versus underscores share one build directory. |
| Locations.GetBuildPrefix | pip/locations.py:112-144 | Windows returns the path with no creation. A successful creation writes the delete marker. After a failed creation, `InstallationError` is raised exactly when the owner is unknown or is not the effective uid. |
| Locations.GetPrefixes | pip/locations.py:146-161 | In a virtualenv the prefixes are `prefix/build` and `prefix/src`. Otherwise they are the build prefix (its errors propagate) and `cwd/src`, and a missing cwd exits. |
| Locations.VirtualenvPrefixesIgnoreHost | pip/locations.py:146-148 | In a virtualenv the prefixes never fail and do not depend on the machine. |
| Locations.GetPlatformPaths | pip/locations.py:174-203 | Windows: `Scripts`, or `bin` for both when `prefix/Scripts` is missing, and `~/pip/pip.ini`. Elsewhere: `bin` and `~/.pip/pip.conf`, except that a Mac OS X framework build uses `/usr/local/bin` and `~/Library/Logs/pip.log`. The log file is otherwise in the storage dir. |
| Locations.BinDirsAgree | pip/locations.py:174-190 | Outside the Mac override, both script directories end with the same name (`Scripts` or `bin`). |
| Locations.DistutilsScheme | pip/locations.py:228-250 | `install_lib` overrides both library dirs. Scripts and data come unchanged. In a virtualenv the headers are `prefix/include/site/python<X.Y>/<dist>`. When `root` is given, that path minus its leading character is placed directly inside `root`. Outside a virtualenv the headers come unchanged. |
| Locations.RootSlashKeepsHeaders | pip/locations.py:244-248 | Re-rooting under `/` leaves the headers of an ordinary absolute prefix unchanged. |
| InstallCommand.IndexUrls | pip/commands/install.py:229-250 | None under `--no-index`, else the index URL followed by the extra ones. The mirrors are then appended, even under `--no-index`. |
| InstallCommand.ForcedFlags | pip/commands/install.py:202-218 | `--download` forces no-install and ignore-installed, and `--target` forces ignore-installed. It changes no other flag. |
| InstallCommand.InstallOptions | pip/commands/install.py:207-227 | The user's install options come unchanged, followed by `--user` for a user install and `--home=<tmp>` for a target install. |
| InstallCommand.LeftOptions | pip/commands/install.py:202-227 | The options are left with the forced flags. A non-empty install-option list is the very list that gets extended, so it is left holding the extended list. An empty one stays empty. |
| InstallCommand.Notices | pip/commands/install.py:189-258 | The notices come in the order `run` logs them, each at most once, and only these five. The build-option deprecation is logged exactly when no-install, no-download or no-clean is set, or the build dir differs from the build prefix. The other notices appear exactly under their options; the index notice names the index URL and the extra ones. |
| InstallCommand.Normalize | pip/commands/install.py:189-258 | It fails exactly when `--user` meets a no-global virtualenv (checked first) or `--target` names an existing non-directory. Otherwise the options left, install options, index URLs and notices are as above. |
| InstallCommand.NormalizeSettles | pip/commands/install.py:202-250 | Normalising its own output forces nothing new and keeps the index URLs. Only the install-option list may grow again. |
| InstallCommand.UserFlagReachesOptions | pip/commands/install.py:207-214 | A `--user` install that has install options of its own also leaves `--user` in the user's option list. |
| InstallCommand.UserInstallRefusedWithoutGlobalSite | pip/commands/install.py:208-213 | `--user` is refused in a virtualenv whose `site` directory carries the no-global marker. |
| InstallCommand.RunSteps | pip/commands/install.py:293-351 | With no requirements it only warns. Otherwise it runs exactly one of prepare and locate, and first: locate under `--no-download`, prepare otherwise. It installs exactly when fetching succeeded and installing is on, and reports the download instead exactly when fetching succeeded and installing is off. It never warns about missing requirements. No step is taken twice, only the move into `--target` may follow cleanup, and that move is last. Cleanup runs exactly when not `--no-clean` and (installing or downloading), unless a previous build directory was found. The target is moved only after success. |
| InstallCommand.DownloadOnlyFetches | pip/commands/install.py:202-340 | `--download` never installs, and cleans up unless `--no-clean` is given or a previous build directory was found. |
| InstallCommand.NoRequirementsNoWork | pip/commands/install.py:293-303 | Without requirements nothing is fetched, installed or cleaned up. |

## Left out

- Python's `\d` and `str.lower` are modelled on ASCII only: Unicode digits and non-ASCII capitals are not.
- Editable.ParseEditable: the extras of a `file:` URL are returned as the raw `[...]` text. `pkg_resources.Requirement.parse` is a foreign library and is not modelled. Where it raises `ValueError` on malformed extras (for example `file:///tmp/p[a b]`), the source fails and the model succeeds.
- Editable.PathToUrl: `path_to_url` is simplified to `file://` followed by the path. `os.path.abspath` and `os.path.realpath` are treated as the identity throughout, and `os.path.join` follows POSIX only.
- The `satisfied_by` branch of `requirements` is left out. It asks an installed distribution through `pkg_resources`.
- Reading the metadata files (`egg_info_data`, `egg_info_path`) is left out: the file's text is a parameter.
- Locations.GetBuildPrefix: creating the directory and writing the delete marker are one input outcome. The printed messages are not modelled.
- CA bundle detection, `appdirs` paths, `site_config_files` and `write_delete_marker_file`'s contents are left out. They probe the filesystem or call unseen libraries.
- `distutils` itself (`Distribution`, `parse_config_files`, `finalize_options`, and the `user`/`home`/`root` settings passed to it) is left out. Its finalized result is the input record `Finalized`.
- `pip.compat.WINDOWS` and `get_path_uid` are not part of this model: they are input fields.
- InstallCommand.RunSteps: `RequirementSet`, the package finder, sessions, parsing requirement files and the actual moving of files out of the temporary target are left out. Only which steps run, and the errors they raise, are modelled.
- The other `InstallRequirement` members (running `setup.py`, install, uninstall and rollback, archive, `check_if_exists`, `from_line`, `from_editable`, `update_editable`, `_filter_install`) are left out. They spawn processes, do I/O or depend on `pkg_resources`.
- Locations.VirtualenvNoGlobal returns `False` where the source returns `None`. Both are falsy to every caller.
- InstallCommand.Normalize: on a refusal only the error is returned. The deprecation warning logged before the refusal is not.
- EggInfo.SplitLines: splits at every line boundary character alone. A CR LF pair therefore gives an extra empty piece, and a final boundary gives a trailing empty piece. An empty text gives one empty line rather than none. `egg_info_lines` drops every empty line, so its result is the same as Python's.
- Locations.DistutilsScheme keeps `sys.version[:3]` as written. On a two-digit minor version such as 3.10 this gives `3.1`.

=== FILE: common.dfy ===
/**
  Values shared by every part of the model: an optional value, a result that
  is either a value or one of the installer's errors, and the errors
  themselves. Each Python exception the modelled code raises (or lets
  escape) becomes one `Error` constructor.
 */
module Common {

  datatype Option<+T> = None | Some(value: T) {

    /** The value, or `default` when there is none (Python's `x or default`). */
    function GetOr(default: T): T {
      match this
      case Some(v) => v
      case None => default
    }
  }

  datatype Result<+T> = Ok(value: T) | Err(error: Error) {

    predicate IsFailure() {
      Err?
    }

    function PropagateFailure<U>(): Result<U>
      requires Err?
    {
      Err(error)
    }

    function Extract(): T
      requires Ok?
    {
      value
    }
  }

  /**
    The filesystem as the modelled code probes it: the paths that are
    directories and the paths that are regular files.
   */
  datatype FileSystem = FileSystem(dirs: set<string>, files: set<string>) {

    /** `os.path.isdir` */
    predicate IsDir(path: string) {
      path in dirs
    }

    /** `os.path.isfile` */
    predicate IsFile(path: string) {
      path in files
    }

    /** `os.path.exists` */
    predicate Exists(path: string) {
      path in dirs || path in files
    }
  }

  datatype Error =
      // InstallationError raised by parse_editable
    | NotInstallableDirectory(path: string)
    | NotVcsUrl(editable: string)
    | UnsupportedVcs(editable: string)
    | DuplicateEditableOption(editable: string, option: string)
    | MissingEggFragment(editable: string)
      // an IndexError escaping from _build_req_from_url
    | IndexOutOfRange
      // InstallationError raised by _get_build_prefix
    | BuildDirNotOwned(path: string)
      // KeyError from the password database lookup of the effective uid
    | UnknownUid(uid: int)
      // sys.exit when the working directory has disappeared
    | MissingWorkingDirectory
      // errors raised by the install command
    | UserSiteNotVisible
    | TargetNotDirectory
    | PreviousBuildDir
    | InstallStepFailed
  {
    /** The errors that are `InstallationError` instances in the source. */
    predicate IsInstallationError() {
      || NotInstallableDirectory? || NotVcsUrl? || UnsupportedVcs?
      || DuplicateEditableOption? || MissingEggFragment?
      || BuildDirNotOwned? || UserSiteNotVisible?
    }
  }
}

=== FILE: editable.dfy ===
/**
  The helpers of `pip/req/req_install.py` that turn an editable requirement
  such as `svn+http://host/repo/trunk#egg=Foo-dev` into a package name, a
  version-control URL and a map of `name=value` options.

  Each regular expression of the source is modelled exactly, including two
  details of Python's `re`: `.` does not match a line feed, and `$` also
  matches just before a final line feed.
 */
module Editable {
  import opened Common
  import opened Text

  // ---------------------------------------------------------------------
  // _strip_postfix: re.search(r'^(.*?)(?:-dev|-\d.*)$', req)
  // ---------------------------------------------------------------------

  predicate IsDigit(c: char) {
    '0' <= c <= '9'
  }

  /** `t` has no line feed except possibly as its last character: what `.*$` accepts. */
  predicate UpToFinalNewline(t: string) {
    forall k :: 0 <= k < |t| - 1 ==> t[k] != '\n'
  }

  /** `(?:-dev|-\d.*)$` matches the whole of `t`. */
  predicate IsVersionPostfix(t: string) {
    || t == "-dev" || t == "-dev\n"
    || (|t| >= 2 && t[0] == '-' && IsDigit(t[1]) && UpToFinalNewline(t[2..]))
  }

  /** The lazy group `^(.*?)` can stop at `i`: it crossed no line feed and a postfix follows. */
  predicate PostfixAt(s: string, i: nat) {
    i <= |s| && '\n' !in s[..i] && IsVersionPostfix(s[i..])
  }

  function FirstPostfixFrom(s: string, i: nat): (r: Option<nat>)
    requires i <= |s|
    ensures r.Some? ==> i <= r.value < |s| && PostfixAt(s, r.value)
    ensures r.Some? ==> forall j :: i <= j < r.value ==> !PostfixAt(s, j)
    ensures r.None? ==> forall j :: i <= j <= |s| ==> !PostfixAt(s, j)
    decreases |s| - i
  {
    if PostfixAt(s, i) then Some(i)
    else if i == |s| then None
    else FirstPostfixFrom(s, i + 1)
  }

  /**
    Drops a version postfix (`-dev`, `-0.2`, ...): either `req` is returned
    unchanged because no postfix follows any prefix, or the result is the
    SHORTEST prefix of `req` after which a postfix follows.
   */
  function StripPostfix(req: string): (r: string)
    ensures StartsWith(req, r)
    ensures r == req <==> forall i :: 0 <= i <= |req| ==> !PostfixAt(req, i)
    ensures r != req ==> PostfixAt(req, |r|) && forall i :: 0 <= i < |r| ==> !PostfixAt(req, i)
  {
    match FirstPostfixFrom(req, 0)
    case None => req
    case Some(i) => req[..i]
  }

  // ---------------------------------------------------------------------
  // parse_editable, first step: re.match(r'^(.+)(\[[^\]]+\])$', url)
  // ---------------------------------------------------------------------

  /** Where `$` can match and a `]` can stand before it: the end, or before one final line feed. */
  function MatchEnd(s: string): (e: nat)
    ensures e <= |s|
  {
    if |s| > 0 && s[|s| - 1] == '\n' then |s| - 1 else |s|
  }

  /** The extras group `\[[^\]]+\]` can start at `p`, with `.+` (no line feed) before it. */
  predicate ExtrasAt(s: string, p: nat) {
    var e := MatchEnd(s);
    && 1 <= p && p + 3 <= e
    && s[p] == '[' && s[e - 1] == ']'
    && ']' !in s[p + 1..e - 1]
    && '\n' !in s[..p]
  }

  function LastExtrasUpTo(s: string, p: nat): (r: Option<nat>)
    ensures r.Some? ==> r.value <= p && ExtrasAt(s, r.value)
    ensures r.Some? ==> forall q: nat :: r.value < q <= p ==> !ExtrasAt(s, q)
    ensures r.None? ==> forall q: nat :: q <= p ==> !ExtrasAt(s, q)
  {
    if ExtrasAt(s, p) then Some(p)
    else if p == 0 then None
    else LastExtrasUpTo(s, p - 1)
  }

  /**
    Splits a trailing `[extras]` group off `editable`. The greedy `.+`
    makes the group start at the LAST position where it can; without a
    group the whole string comes back with no extras.
   */
  function StripExtras(editable: string): (r: (string, Option<string>))
    ensures r.1.None? ==> r.0 == editable && forall p: nat :: p <= |editable| ==> !ExtrasAt(editable, p)
    ensures r.1.Some? ==> ExtrasAt(editable, |r.0|) && forall q: nat :: |r.0| < q <= |editable| ==> !ExtrasAt(editable, q)
    ensures r.1.Some? ==> StartsWith(editable, r.0 + r.1.value) && |r.0 + r.1.value| == MatchEnd(editable)
    ensures r.1.Some? ==> r.0 != [] && |r.1.value| >= 3 && r.1.value[0] == '[' && r.1.value[|r.1.value| - 1] == ']'
  {
    match LastExtrasUpTo(editable, |editable|)
    case None => (editable, None)
    case Some(p) =>
      var e := MatchEnd(editable);
      assert editable[..p] + editable[p..e] == editable[..e];
      (editable[..p], Some(editable[p..e]))
  }

  // ---------------------------------------------------------------------
  // _build_editable_options: findall(r"[\?#&](?P<name>[^&=]+)=(?P<value>[^&=]+)")
  // ---------------------------------------------------------------------

  /** The characters `[^&=]` does not accept. */
  predicate Stops(c: char) {
    c == '&' || c == '='
  }

  predicate IsOptionLead(c: char) {
    c == '?' || c == '#' || c == '&'
  }

  /** One match of the option pattern: where it starts, its two groups, where it ends. */
  datatype OptionMatch = OptionMatch(start: nat, name: string, value: string, end: nat)

  /**
    The option pattern matches at `m.start` with groups `m.name` and
    `m.value`. Both groups are greedy, so the name runs up to the `=` and
    the value up to the next `&`, `=` or the end of `s`.
   */
  predicate IsOptionMatch(s: string, m: OptionMatch) {
    var nameEnd := m.start + 1 + |m.name|;
    && m.end == nameEnd + 1 + |m.value| <= |s|
    && |m.name| > 0 && |m.value| > 0
    && IsOptionLead(s[m.start])
    && s[m.start + 1..nameEnd] == m.name
    && s[nameEnd] == '='
    && s[nameEnd + 1..m.end] == m.value
    && (forall k :: 0 <= k < |m.name| ==> !Stops(m.name[k]))
    && (forall k :: 0 <= k < |m.value| ==> !Stops(m.value[k]))
    && (m.end == |s| || Stops(s[m.end]))
  }

  /** Tries the option pattern at exactly position `k`. */
  function MatchAt(s: string, k: nat): (r: Option<OptionMatch>)
    requires k < |s|
    ensures r.Some? ==> r.value.start == k && IsOptionMatch(s, r.value)
  {
    if !IsOptionLead(s[k]) then None
    else
      var nameEnd := FirstWhere(s, Stops, k + 1);
      if nameEnd == k + 1 || nameEnd == |s| || s[nameEnd] != '=' then None
      else
        var valueEnd := FirstWhere(s, Stops, nameEnd + 1);
        if valueEnd == nameEnd + 1 then None
        else Some(OptionMatch(k, s[k + 1..nameEnd], s[nameEnd + 1..valueEnd], valueEnd))
  }

  /** A run of characters other than `&` and `=`, followed by one of them or the end, ends where `FirstWhere` stops. */
  lemma RunEnds(s: string, from: nat, run: string)
    requires from + |run| <= |s| && s[from..from + |run|] == run
    requires forall k :: 0 <= k < |run| ==> !Stops(run[k])
    requires from + |run| == |s| || Stops(s[from + |run|])
    ensures FirstWhere(s, Stops, from) == from + |run|
  {
    forall j | from <= j < from + |run|
      ensures !Stops(s[j])
    {
      assert s[j] == run[j - from];
    }
    FirstWhereAt(s, Stops, from, from + |run|);
  }

  /** Trying the pattern where a match starts finds exactly that match. */
  lemma MatchAtComplete(s: string, m: OptionMatch)
    requires IsOptionMatch(s, m)
    ensures MatchAt(s, m.start) == Some(m)
  {
    var nameEnd := m.start + 1 + |m.name|;
    NameRunEnds(s, m);
    ValueRunEnds(s, m);
    MatchAtBounds(s, m.start, nameEnd, m.end);
  }

  /** The name group of a match ends at its `=`. */
  lemma NameRunEnds(s: string, m: OptionMatch)
    requires IsOptionMatch(s, m)
    ensures FirstWhere(s, Stops, m.start + 1) == m.start + 1 + |m.name|
  {
    RunEnds(s, m.start + 1, m.name);
  }

  /** The value group of a match ends where the match does. */
  lemma ValueRunEnds(s: string, m: OptionMatch)
    requires IsOptionMatch(s, m)
    ensures FirstWhere(s, Stops, m.start + 2 + |m.name|) == m.end
  {
    RunEnds(s, m.start + 2 + |m.name|, m.value);
  }

  /** Where the two runs end decides what `MatchAt` returns. */
  lemma MatchAtBounds(s: string, k: nat, nameEnd: nat, valueEnd: nat)
    requires k < |s| && IsOptionLead(s[k])
    requires k + 1 < nameEnd < |s| && s[nameEnd] == '=' && FirstWhere(s, Stops, k + 1) == nameEnd
    requires nameEnd + 1 < valueEnd <= |s| && FirstWhere(s, Stops, nameEnd + 1) == valueEnd
    ensures MatchAt(s, k) == Some(OptionMatch(k, s[k + 1..nameEnd], s[nameEnd + 1..valueEnd], valueEnd))
  {
  }

  /** Some returned match spans position `k`. */
  predicate Covered(ms: seq<OptionMatch>, k: nat) {
    |ms| > 0 && (ms[0].start <= k < ms[0].end || Covered(ms[1..], k))
  }

  /** Every place at or after `pos` where the pattern matches lies inside one of `ms`. */
  ghost predicate CoversFrom(s: string, pos: nat, ms: seq<OptionMatch>) {
    forall m: OptionMatch :: pos <= m.start && IsOptionMatch(s, m) ==> Covered(ms, m.start)
  }

  /**
    `findall` from position `pos`: the matches found by a leftmost scan
    that resumes after each match. Every returned match is a real match,
    they do not overlap and come in order, and every position where the
    pattern could match is covered by a returned match. These three facts
    determine the leftmost scan.
   */
  function ScanOptions(s: string, pos: nat): (ms: seq<OptionMatch>)
    requires pos <= |s|
    ensures forall i :: 0 <= i < |ms| ==> pos <= ms[i].start && IsOptionMatch(s, ms[i])
    ensures forall i :: 0 <= i < |ms| - 1 ==> ms[i].end <= ms[i + 1].start
    ensures CoversFrom(s, pos, ms)
    decreases |s| - pos
  {
    if pos == |s| then []
    else match MatchAt(s, pos)
      case None =>
        var rest := ScanOptions(s, pos + 1);
        ScanSkipsPosition(s, pos, rest);
        rest
      case Some(m) =>
        var rest := ScanOptions(s, m.end);
        ScanTakesMatch(s, m, rest);
        [m] + rest
  }

  /** No match starts where the pattern failed, so coverage from `pos + 1` is coverage from `pos`. */
  lemma ScanSkipsPosition(s: string, pos: nat, rest: seq<OptionMatch>)
    requires pos < |s| && MatchAt(s, pos).None?
    requires CoversFrom(s, pos + 1, rest)
    ensures CoversFrom(s, pos, rest)
  {
    forall m: OptionMatch | pos <= m.start && IsOptionMatch(s, m)
      ensures Covered(rest, m.start)
    {
      if m.start == pos {
        MatchAtComplete(s, m);
        assert false;
      }
    }
  }

  /** A match at `pos` covers every position up to its end; the rest cover the others. */
  lemma ScanTakesMatch(s: string, m: OptionMatch, rest: seq<OptionMatch>)
    requires IsOptionMatch(s, m)
    requires forall i :: 0 <= i < |rest| ==> m.end <= rest[i].start && IsOptionMatch(s, rest[i])
    requires forall i :: 0 <= i < |rest| - 1 ==> rest[i].end <= rest[i + 1].start
    requires CoversFrom(s, m.end, rest)
    ensures forall i :: 0 <= i < |rest| + 1 ==> m.start <= ([m] + rest)[i].start && IsOptionMatch(s, ([m] + rest)[i])
    ensures forall i :: 0 <= i < |rest| ==> ([m] + rest)[i].end <= ([m] + rest)[i + 1].start
    ensures CoversFrom(s, m.start, [m] + rest)
  {
    var ms := [m] + rest;
    assert ms[1..] == rest;
    assert forall i :: 1 <= i < |ms| ==> ms[i] == rest[i - 1];
    forall m': OptionMatch | m.start <= m'.start && IsOptionMatch(s, m')
      ensures Covered(ms, m'.start)
    {
      if m.end <= m'.start {
        assert Covered(rest, m'.start);
      }
    }
  }

  predicate DistinctNames(ms: seq<OptionMatch>) {
    forall i, j :: 0 <= i < j < |ms| ==> ms[i].name != ms[j].name
  }

  /** The map holds exactly the matched names, each with its value. */
  ghost predicate HoldsMatches(ms: seq<OptionMatch>, opts: map<string, string>) {
    && opts.Keys == (set i | 0 <= i < |ms| :: ms[i].name)
    && forall i :: 0 <= i < |ms| ==> opts[ms[i].name] == ms[i].value
  }

  /** `e` reports the first match whose name was already seen. */
  ghost predicate ReportsFirstRepeat(editable: string, ms: seq<OptionMatch>, e: Error) {
    exists j :: 0 < j < |ms| && DistinctNames(ms[..j]) && !DistinctNames(ms[..j + 1])
                && e == DuplicateEditableOption(editable, ms[j].name)
  }

  /**
    `r` is what collecting the matches `ms` into a map gives: a map exactly
    when the names are distinct, holding the matches, and otherwise an
    error naming the first name that repeats.
   */
  ghost predicate Collects(editable: string, ms: seq<OptionMatch>, r: Result<map<string, string>>) {
    && (r.Ok? <==> DistinctNames(ms))
    && (r.Ok? ==> HoldsMatches(ms, r.value))
    && (r.Err? ==> ReportsFirstRepeat(editable, ms, r.error))
  }

  /** One turn of the loop: store `m` unless its name is already there. */
  function AddOption(editable: string, prev: Result<map<string, string>>, m: OptionMatch): Result<map<string, string>> {
    match prev
    case Err(e) => Err(e)
    case Ok(opts) => if m.name in opts then Err(DuplicateEditableOption(editable, m.name)) else Ok(opts[m.name := m.value])
  }

  /** Builds the option map in match order; a name seen twice makes the whole collection fail. */
  function CollectOptions(editable: string, ms: seq<OptionMatch>): (r: Result<map<string, string>>)
    ensures r.Ok? <==> DistinctNames(ms)
    ensures r.Ok? ==> HoldsMatches(ms, r.value)
    ensures r.Err? ==> ReportsFirstRepeat(editable, ms, r.error)
    decreases |ms|
  {
    if ms == [] then Ok(map[])
    else
      var init := ms[..|ms| - 1];
      var prev := CollectOptions(editable, init);
      var r := AddOption(editable, prev, ms[|ms| - 1]);
      CollectsStep(editable, ms, prev);
      r
  }

  /** Adding the last match keeps `Collects`. */
  lemma CollectsStep(editable: string, ms: seq<OptionMatch>, prev: Result<map<string, string>>)
    requires ms != [] && Collects(editable, ms[..|ms| - 1], prev)
    ensures Collects(editable, ms, AddOption(editable, prev, ms[|ms| - 1]))
  {
    var init := ms[..|ms| - 1];
    var last := ms[|ms| - 1];
    match prev
    case Err(e) => CollectsKeepsError(editable, ms, e);
    case Ok(m) =>
      if last.name in m {
        CollectsFindsRepeat(editable, ms, m);
      } else {
        CollectsAdds(editable, ms, m);
      }
  }

  lemma CollectsKeepsError(editable: string, ms: seq<OptionMatch>, e: Error)
    requires ms != [] && Collects(editable, ms[..|ms| - 1], Err(e))
    ensures Collects(editable, ms, Err(e))
  {
    var init := ms[..|ms| - 1];
    var j :| 0 < j < |init| && DistinctNames(init[..j]) && !DistinctNames(init[..j + 1])
             && e == DuplicateEditableOption(editable, init[j].name);
    assert init[..j] == ms[..j] && init[..j + 1] == ms[..j + 1] && init[j] == ms[j];
    assert 0 < j < |ms| && DistinctNames(ms[..j]) && !DistinctNames(ms[..j + 1])
           && e == DuplicateEditableOption(editable, ms[j].name);
    RepeatPersists(init, ms);
  }

  /** A repeated name stays repeated when more matches follow. */
  lemma RepeatPersists(init: seq<OptionMatch>, ms: seq<OptionMatch>)
    requires StartsWithMatches(ms, init) && !DistinctNames(init)
    ensures !DistinctNames(ms)
  {
    var p, q :| 0 <= p < q < |init| && init[p].name == init[q].name;
    assert ms[p] == init[p] && ms[q] == init[q];
  }

  predicate StartsWithMatches(ms: seq<OptionMatch>, init: seq<OptionMatch>) {
    |init| <= |ms| && ms[..|init|] == init
  }

  lemma CollectsFindsRepeat(editable: string, ms: seq<OptionMatch>, m: map<string, string>)
    requires ms != [] && Collects(editable, ms[..|ms| - 1], Ok(m))
    requires ms[|ms| - 1].name in m
    ensures Collects(editable, ms, Err(DuplicateEditableOption(editable, ms[|ms| - 1].name)))
  {
    var init := ms[..|ms| - 1];
    var i :| 0 <= i < |init| && init[i].name == ms[|ms| - 1].name;
    assert ms[i] == init[i];
    assert ms[..|ms| - 1 + 1] == ms;
  }

  lemma CollectsAdds(editable: string, ms: seq<OptionMatch>, m: map<string, string>)
    requires ms != [] && Collects(editable, ms[..|ms| - 1], Ok(m))
    requires ms[|ms| - 1].name !in m
    ensures Collects(editable, ms, Ok(m[ms[|ms| - 1].name := ms[|ms| - 1].value]))
  {
    var init := ms[..|ms| - 1];
    assert init + [ms[|ms| - 1]] == ms;
    NewNameKeepsDistinct(init, ms[|ms| - 1], m);
    HoldsMatchesSnoc(init, ms[|ms| - 1], m);
  }

  /** A name not yet in the map keeps the names distinct. */
  lemma NewNameKeepsDistinct(init: seq<OptionMatch>, last: OptionMatch, m: map<string, string>)
    requires DistinctNames(init) && HoldsMatches(init, m) && last.name !in m
    ensures DistinctNames(init + [last])
  {
    var ms := init + [last];
    forall i, j | 0 <= i < j < |ms|
      ensures ms[i].name != ms[j].name
    {
      if j == |init| {
        assert ms[i] == init[i];
        assert init[i].name in m.Keys;
      } else {
        assert ms[i] == init[i] && ms[j] == init[j];
      }
    }
  }

  /** Storing a new name's value extends a map holding the earlier matches to one holding all. */
  lemma HoldsMatchesSnoc(init: seq<OptionMatch>, last: OptionMatch, m: map<string, string>)
    requires HoldsMatches(init, m) && last.name !in m
    ensures HoldsMatches(init + [last], m[last.name := last.value])
  {
    var ms := init + [last];
    var m' := m[last.name := last.value];
    var names := set i | 0 <= i < |ms| :: ms[i].name;
    var initNames := set i | 0 <= i < |init| :: init[i].name;
    assert names == initNames + {last.name} by {
      forall n | n in names
        ensures n in initNames + {last.name}
      {
        var i :| 0 <= i < |ms| && ms[i].name == n;
        if i < |init| {
          assert ms[i] == init[i];
        }
      }
      forall n | n in initNames + {last.name}
        ensures n in names
      {
        if n == last.name {
          assert ms[|init|].name == n;
        } else {
          var i :| 0 <= i < |init| && init[i].name == n;
          assert ms[i] == init[i];
        }
      }
    }
    forall i | 0 <= i < |ms|
      ensures m'[ms[i].name] == ms[i].value
    {
      if i < |init| {
        assert ms[i] == init[i];
        assert init[i].name in m.Keys;
      }
    }
  }

  /**
    `_build_editable_options`: no option map at all when the pattern never
    matches; otherwise each matched name mapped to its value, or an error
    when a name is given twice (the source raises, and `parse_editable`
    turns that into an `InstallationError`).
   */
  function EditableOptions(editable: string): (r: Result<Option<map<string, string>>>)
    ensures r == Ok(None) <==> forall m: OptionMatch :: !IsOptionMatch(editable, m)
    ensures r.Err? <==> !DistinctNames(ScanOptions(editable, 0))
    ensures r.Ok? && r.value.Some? ==>
              forall n :: n in r.value.value ==>
                exists m: OptionMatch :: IsOptionMatch(editable, m) && m.name == n && m.value == r.value.value[n]
    ensures r.Ok? && r.value.Some? ==> HoldsMatches(ScanOptions(editable, 0), r.value.value)
    ensures r.Err? ==> ReportsFirstRepeat(editable, ScanOptions(editable, 0), r.error)
  {
    var ms := ScanOptions(editable, 0);
    if ms == [] then
      assert forall m: OptionMatch :: !IsOptionMatch(editable, m) by {
        forall m: OptionMatch ensures !IsOptionMatch(editable, m) {
          if IsOptionMatch(editable, m) {
            assert false;
          }
        }
      }
      Ok(None)
    else
      assert IsOptionMatch(editable, ms[0]);
      match CollectOptions(editable, ms)
      case Err(e) => Err(e)
      case Ok(opts) =>
        assert forall n :: n in opts ==>
                 exists m: OptionMatch :: IsOptionMatch(editable, m) && m.name == n && m.value == opts[n] by {
          forall n | n in opts
            ensures exists m: OptionMatch :: IsOptionMatch(editable, m) && m.name == n && m.value == opts[n]
          {
            var i :| 0 <= i < |ms| && ms[i].name == n;
            assert IsOptionMatch(editable, ms[i]);
          }
        }
        Ok(Some(opts))
  }

  // ---------------------------------------------------------------------
  // _build_req_from_url
  // ---------------------------------------------------------------------

  /** Drops the empty strings, keeping the order of the others. */
  function NonEmpty(parts: seq<string>): (r: seq<string>)
    ensures forall i :: 0 <= i < |r| ==> r[i] != [] && r[i] in parts
    ensures forall x :: x in parts && x != [] ==> x in r
    ensures |r| <= |parts|
  {
    if parts == [] then []
    else (if parts[0] == [] then [] else [parts[0]]) + NonEmpty(parts[1..])
  }

  lemma {:induction false} NonEmptyDropsTrailingEmpty(parts: seq<string>)
    ensures NonEmpty(parts + [""]) == NonEmpty(parts)
  {
    if parts == [] {
      assert NonEmpty([""]) == [] + NonEmpty([]);
    } else {
      assert (parts + [""])[1..] == parts[1..] + [""];
      NonEmptyDropsTrailingEmpty(parts[1..]);
    }
  }

  /** Dropping empty strings commutes with concatenation, so the order of the others is kept. */
  lemma {:induction false} NonEmptyAppend(a: seq<string>, b: seq<string>)
    ensures NonEmpty(a + b) == NonEmpty(a) + NonEmpty(b)
    decreases |a|
  {
    if a == [] {
      assert a + b == b;
    } else {
      assert (a + b)[1..] == a[1..] + b;
      NonEmptyAppend(a[1..], b);
    }
  }

  /** Appending one string keeps what was kept and adds that string exactly when it is non-empty. */
  lemma NonEmptySnoc(parts: seq<string>, x: string)
    ensures NonEmpty(parts + [x]) == NonEmpty(parts) + (if x == [] then [] else [x])
  {
    NonEmptyAppend(parts, [x]);
    assert NonEmpty([x]) == (if x == [] then [] else [x]) + NonEmpty([]);
  }

  /**
    The non-empty `/`-separated segments of the URL before its first `#`,
    in order: exactly the non-empty pieces of that part.
   */
  function UrlSegments(url: string): (parts: seq<string>)
    ensures forall i :: 0 <= i < |parts| ==> parts[i] != [] && '/' !in parts[i]
    ensures forall x :: x in parts <==> x != [] && x in Split(BeforeFirst(url, '#'), '/')
  {
    NonEmpty(Split(BeforeFirst(url, '#'), '/'))
  }

  const BranchDirs: set<string> := {"tags", "branches", "tag", "branch"}

  /**
    Derives a package name from a URL path: the segment above a
    `tags`/`branches`/`tag`/`branch` directory, else the segment above a
    final `trunk`, else nothing. The source indexes from the end without
    checking the length, so too few segments escape as an `IndexError`.
   */
  function BuildReqFromUrl(url: string): (r: Result<Option<string>>)
    ensures var parts := UrlSegments(url); var n := |parts|;
      && (n < 2 ==> r == Err(IndexOutOfRange))
      && (n >= 2 && parts[n - 2] in BranchDirs ==>
            r == if n >= 3 then Ok(Some(parts[n - 3])) else Err(IndexOutOfRange))
      && (n >= 2 && parts[n - 2] !in BranchDirs && parts[n - 1] == "trunk" ==> r == Ok(Some(parts[n - 2])))
      && (n >= 2 && parts[n - 2] !in BranchDirs && parts[n - 1] != "trunk" ==> r == Ok(None))
    ensures r.Ok? && r.value.Some? ==> r.value.value != [] && '/' !in r.value.value
  {
    var parts := UrlSegments(url);
    var n := |parts|;
    if n < 2 then Err(IndexOutOfRange)
    else if parts[n - 2] in BranchDirs then
      if n >= 3 then Ok(Some(parts[n - 3])) else Err(IndexOutOfRange)
    else if parts[n - 1] == "trunk" then Ok(Some(parts[n - 2]))
    else Ok(None)
  }

  /** Only the part before the first `#` decides the name. */
  lemma BuildReqIgnoresFragment(url: string, fragment: string)
    requires '#' !in url
    ensures BuildReqFromUrl(url + "#" + fragment) == BuildReqFromUrl(url)
  {
    var s := url + "#" + fragment;
    forall j | 0 <= j < |url|
      ensures !Is('#')(s[j]) && !Is('#')(url[j])
    {
      assert s[j] == url[j];
    }
    FirstWhereAt(s, Is('#'), 0, |url|);
    FirstWhereAt(url, Is('#'), 0, |url|);
    assert s[..|url|] == url;
    assert BeforeFirst(s, '#') == url == BeforeFirst(url, '#');
    assert UrlSegments(s) == UrlSegments(url);
  }

  /** Empty segments are dropped, so a trailing `/` does not change the name. */
  lemma BuildReqIgnoresTrailingSlash(url: string)
    requires '#' !in url
    ensures BuildReqFromUrl(url + "/") == BuildReqFromUrl(url)
  {
    assert BeforeFirst(url + "/", '#') == url + "/";
    assert BeforeFirst(url, '#') == url;
    SplitAppendSep(url, '/');
    NonEmptyDropsTrailingEmpty(Split(url, '/'));
  }

  // ---------------------------------------------------------------------
  // parse_editable
  // ---------------------------------------------------------------------

  /** The third value `parse_editable` returns: nothing, the extras text, or the option map. */
  datatype Extra = NoExtra | ExtrasText(text: string) | Options(options: map<string, string>)

  /** What `parse_editable` returns: package name (none for a local project), URL and `Extra`. */
  datatype EditableReq = EditableReq(name: Option<string>, url: string, extra: Extra)

  /** `path_to_url`, simplified to the `file://` URL of the (absolute) path. */
  function PathToUrl(path: string): (url: string)
    ensures StartsWith(url, "file://") && EndsWith(url, path)
    ensures |url| == |"file://"| + |path|
  {
    "file://" + path
  }

  /** The location is a `file:` URL, in any letter case. */
  predicate IsFileUrl(url: string) {
    StartsWith(Lower(url), "file:")
  }

  /**
    A location naming a local directory must hold `setup.py`; it is then
    treated as already checked out and turned into a `file:` URL. Any other
    location is kept as it is.
   */
  function LocalUrl(location: string, fs: FileSystem): (r: Result<string>)
    ensures r.Err? <==> fs.IsDir(location) && !fs.Exists(PathJoin(location, "setup.py"))
    ensures r.Err? ==> r.error == NotInstallableDirectory(location)
    ensures r.Ok? && fs.IsDir(location) ==> r.value == PathToUrl(location) && IsFileUrl(r.value)
    ensures !fs.IsDir(location) ==> r == Ok(location)
  {
    if !fs.IsDir(location) then Ok(location)
    else if !fs.Exists(PathJoin(location, "setup.py")) then Err(NotInstallableDirectory(location))
    else
      var url := PathToUrl(location);
      assert Lower(url)[..5] == "file:";
      Ok(url)
  }

  /** `url` starts, in any letter case, with `<vc>:`. */
  predicate HasVcsScheme(url: string, vc: string) {
    StartsWith(Lower(url), vc + ":")
  }

  /**
    `r` is what the scheme rewrite may produce: `url` itself exactly when no
    backend's `<vc>:` begins it, and otherwise `<vc>+<url>` for the FIRST
    backend (in registry order) whose `<vc>:` does.
   */
  ghost predicate IsSchemeChoice(vcs: seq<string>, url: string, r: string) {
    && ((forall i :: 0 <= i < |vcs| ==> !HasVcsScheme(url, vcs[i])) <==> r == url)
    && (r != url ==>
          exists i :: 0 <= i < |vcs| && HasVcsScheme(url, vcs[i]) && r == vcs[i] + "+" + url
                      && forall j :: 0 <= j < i ==> !HasVcsScheme(url, vcs[j]))
  }

  /** The loop over the registry that prefixes `<vc>+` to a `<vc>:` URL and stops. */
  function AddVcsScheme(vcs: seq<string>, url: string): (r: string)
    ensures IsSchemeChoice(vcs, url, r)
    decreases |vcs|
  {
    if vcs == [] then url
    else if HasVcsScheme(url, vcs[0]) then vcs[0] + "+" + url
    else
      var r := AddVcsScheme(vcs[1..], url);
      SchemeChoiceSkipsHead(vcs, url, r);
      r
  }

  lemma SchemeChoiceSkipsHead(vcs: seq<string>, url: string, r: string)
    requires vcs != [] && !HasVcsScheme(url, vcs[0])
    requires IsSchemeChoice(vcs[1..], url, r)
    ensures IsSchemeChoice(vcs, url, r)
  {
    var tail := vcs[1..];
    if r != url {
      var i :| 0 <= i < |tail| && HasVcsScheme(url, tail[i]) && r == tail[i] + "+" + url
               && forall j :: 0 <= j < i ==> !HasVcsScheme(url, tail[j]);
      assert vcs[i + 1] == tail[i];
      forall j | 0 <= j < i + 1
        ensures !HasVcsScheme(url, vcs[j])
      {
        if j > 0 {
          assert vcs[j] == tail[j - 1];
        }
      }
    } else {
      forall i | 0 <= i < |vcs|
        ensures !HasVcsScheme(url, vcs[i])
      {
        if i > 0 {
          assert vcs[i] == tail[i - 1];
        }
      }
    }
  }

  /** The backend name a `<type>+<url>` URL asks for. */
  function VcsType(url: string): string {
    Lower(BeforeFirst(url, '+'))
  }

  /**
    The version-control URL of an editable that is not a local project:
    the editable itself, prefixed by `<vc>+` when it starts with `<vc>:`,
    or by the default backend when it still has no `+`. Without a default
    that is an error, and so is a backend type the registry does not know.
   */
  function VcsUrl(editable: string, defaultVcs: Option<string>, vcs: seq<string>): (r: Result<string>)
    ensures r.Ok? ==> '+' in r.value && VcsType(r.value) in vcs && EndsWith(r.value, editable)
    ensures r == Err(NotVcsUrl(editable)) <==>
              '+' !in AddVcsScheme(vcs, editable) && (defaultVcs.None? || defaultVcs.value == "")
    ensures r.Err? ==> r.error == NotVcsUrl(editable) || r.error == UnsupportedVcs(editable)
    ensures '+' in AddVcsScheme(vcs, editable) ==>
              r == if VcsType(AddVcsScheme(vcs, editable)) in vcs
                   then Ok(AddVcsScheme(vcs, editable)) else Err(UnsupportedVcs(editable))
    ensures '+' !in AddVcsScheme(vcs, editable) && defaultVcs.Some? && defaultVcs.value != "" ==>
              var u := defaultVcs.value + "+" + AddVcsScheme(vcs, editable);
              r == if VcsType(u) in vcs then Ok(u) else Err(UnsupportedVcs(editable))
  {
    var url := AddVcsScheme(vcs, editable);
    if '+' !in url && (defaultVcs.None? || defaultVcs.value == "") then Err(NotVcsUrl(editable))
    else
      var url := if '+' in url then url else defaultVcs.value + "+" + url;
      assert EndsWith(url, editable);
      if VcsType(url) !in vcs then Err(UnsupportedVcs(editable)) else Ok(url)
  }

  /**
    The package name: the `egg` option when there is one, otherwise the name
    derived from the URL path, which must exist; in both cases with its
    version postfix stripped.
   */
  function PackageName(editable: string, options: Option<map<string, string>>): (r: Result<string>)
    ensures options.Some? && "egg" in options.value ==> r == Ok(StripPostfix(options.value["egg"]))
    ensures !(options.Some? && "egg" in options.value) ==>
              match BuildReqFromUrl(editable)
              case Ok(Some(n)) => r == Ok(StripPostfix(n))
              case Ok(None) => r == Err(MissingEggFragment(editable))
              case Err(e) => r == Err(e)
  {
    if options.None? || "egg" !in options.value then
      match BuildReqFromUrl(editable)
      case Err(e) => Err(e)
      case Ok(None) => Err(MissingEggFragment(editable))
      case Ok(Some(n)) => Ok(StripPostfix(n))
    else Ok(StripPostfix(options.value["egg"]))
  }

  /**
    `parse_editable`. A trailing `[extras]` group is split off first; if
    what remains is a local project or a `file:` URL, the result has no
    name, that URL, and the extras text. Otherwise the whole editable
    string (extras included) becomes a version-control URL, its options are
    scanned, and the package name is taken from the `egg` option or the
    URL path. Filesystem probes and the backend registry are parameters.
   */
  function ParseEditable(editable: string, defaultVcs: Option<string>, vcs: seq<string>, fs: FileSystem)
    : (r: Result<EditableReq>)
    ensures var (location, extras) := StripExtras(editable);
      match LocalUrl(location, fs)
      case Err(e) => r == Err(e)
      case Ok(url) =>
        && (r.Ok? && r.value.name.None? <==> IsFileUrl(url))
        && (IsFileUrl(url) ==>
              r == Ok(EditableReq(None, url, if extras.Some? then ExtrasText(extras.value) else NoExtra)))
    ensures r.Ok? && r.value.name.Some? ==>
              && VcsUrl(editable, defaultVcs, vcs).Ok? && r.value.url == VcsUrl(editable, defaultVcs, vcs).value
              && VcsType(r.value.url) in vcs && EndsWith(r.value.url, editable)
              && EditableOptions(editable).Ok?
              && PackageName(editable, EditableOptions(editable).value) == Ok(r.value.name.value)
    ensures r.Ok? && r.value.name.Some? ==>
              r.value.extra == match EditableOptions(editable).value
                               case None => NoExtra
                               case Some(opts) => Options(opts)
    ensures var location := StripExtras(editable).0;
      LocalUrl(location, fs).Ok? && !IsFileUrl(LocalUrl(location, fs).value) ==>
        var vcsUrl := VcsUrl(editable, defaultVcs, vcs);
        var options := EditableOptions(editable);
        && (r.Ok? <==> vcsUrl.Ok? && options.Ok? && PackageName(editable, options.value).Ok?)
        && (vcsUrl.Err? ==> r == Err(vcsUrl.error))
        && (vcsUrl.Ok? && options.Err? ==> r == Err(options.error))
        && (vcsUrl.Ok? && options.Ok? && PackageName(editable, options.value).Err? ==>
              r == Err(PackageName(editable, options.value).error))
  {
    var (location, extras) := StripExtras(editable);
    var url :- LocalUrl(location, fs);
    if IsFileUrl(url) then
      Ok(EditableReq(None, url, if extras.Some? then ExtrasText(extras.value) else NoExtra))
    else
      var vcsUrl :- VcsUrl(editable, defaultVcs, vcs);
      var options :- EditableOptions(editable);
      var name :- PackageName(editable, options);
      Ok(EditableReq(Some(name), vcsUrl, if options.Some? then Options(options.value) else NoExtra))
  }

  /**
    An editable whose only `?`, `#` or `&` starts a trailing `#egg=<name>`
    has exactly that option; once it is a version-control URL it parses
    to the package `name` with its version postfix stripped, whatever the
    URL path says.
   */
  lemma EggFragmentNamesPackage(url: string, name: string, defaultVcs: Option<string>, vcs: seq<string>,
                                fs: FileSystem)
    requires forall k :: 0 <= k < |url| ==> !IsOptionLead(url[k])
    requires name != [] && forall k :: 0 <= k < |name| ==> !Stops(name[k]) && !IsOptionLead(name[k])
    ensures EditableOptions(url + "#egg=" + name) == Ok(Some(map["egg" := name]))
    ensures var e := url + "#egg=" + name;
      var location := StripExtras(e).0;
      !fs.IsDir(location) && !IsFileUrl(location) && VcsUrl(e, defaultVcs, vcs).Ok? ==>
        ParseEditable(e, defaultVcs, vcs, fs)
        == Ok(EditableReq(Some(StripPostfix(name)), VcsUrl(e, defaultVcs, vcs).value, Options(map["egg" := name])))
  {
    EggFragmentOption(url, name);
  }

  /** The options of `<url>#egg=<name>`, with no other `?`, `#` or `&`, are just `egg`. */
  lemma EggFragmentOption(url: string, name: string)
    requires forall k :: 0 <= k < |url| ==> !IsOptionLead(url[k])
    requires name != [] && forall k :: 0 <= k < |name| ==> !Stops(name[k]) && !IsOptionLead(name[k])
    ensures EditableOptions(url + "#egg=" + name) == Ok(Some(map["egg" := name]))
  {
    var e := url + "#egg=" + name;
    var m := OptionMatch(|url|, "egg", name, |e|);
    EggFragmentScan(url, name);
    var opts := CollectOptions(e, [m]).value;
    assert opts.Keys == {"egg"} by {
      assert (set i | 0 <= i < |[m]| :: [m][i].name) == {"egg"};
    }
    assert opts == map["egg" := name];
  }

  /** `findall` over `<url>#egg=<name>` finds the one `egg` option. */
  lemma EggFragmentScan(url: string, name: string)
    requires forall k :: 0 <= k < |url| ==> !IsOptionLead(url[k])
    requires name != [] && forall k :: 0 <= k < |name| ==> !Stops(name[k]) && !IsOptionLead(name[k])
    ensures var e := url + "#egg=" + name;
      ScanOptions(e, 0) == [OptionMatch(|url|, "egg", name, |e|)]
  {
    var e := url + "#egg=" + name;
    var m := OptionMatch(|url|, "egg", name, |e|);
    assert e[|url| + 1..|url| + 4] == "egg" && e[|url| + 5..|e|] == name;
    assert IsOptionMatch(e, m);
    forall k | 0 <= k < |e| && k != m.start
      ensures !IsOptionLead(e[k])
    {
      if k < |url| {
        assert e[k] == url[k];
      } else if k > |url| + 4 {
        assert e[k] == name[k - |url| - 5];
      }
    }
    OnlyOption(e, m);
  }

  /** When no `?`, `#` or `&` stands anywhere but where the match `m` starts, `findall` returns just `m`. */
  lemma OnlyOption(s: string, m: OptionMatch)
    requires IsOptionMatch(s, m)
    requires forall k :: 0 <= k < |s| && k != m.start ==> !IsOptionLead(s[k])
    ensures ScanOptions(s, 0) == [m]
  {
    var ms := ScanOptions(s, 0);
    forall i | 0 <= i < |ms|
      ensures ms[i] == m
    {
      MatchAtComplete(s, ms[i]);
      MatchAtComplete(s, m);
    }
    OrderedCopies(ms, m);
    assert Covered(ms, m.start);
  }

  /** Ordered, non-overlapping copies of one match with `start < end` are at most one. */
  lemma OrderedCopies(ms: seq<OptionMatch>, m: OptionMatch)
    requires forall i :: 0 <= i < |ms| ==> ms[i] == m
    requires forall i :: 0 <= i < |ms| - 1 ==> ms[i].end <= ms[i + 1].start
    ensures |ms| > 1 ==> m.end <= m.start
  {
    if |ms| > 1 {
      assert ms[0] == m && ms[1] == m;
    }
  }

  /**
    A local project or `file:` URL never reaches the version-control
    handling: the default backend and the registry make no difference.
   */
  lemma FileUrlIgnoresVcs(editable: string, fs: FileSystem,
                          defaultVcs: Option<string>, vcs: seq<string>,
                          defaultVcs': Option<string>, vcs': seq<string>)
    requires LocalUrl(StripExtras(editable).0, fs).Ok?
    requires IsFileUrl(LocalUrl(StripExtras(editable).0, fs).value)
    ensures ParseEditable(editable, defaultVcs, vcs, fs) == ParseEditable(editable, defaultVcs', vcs', fs)
    ensures ParseEditable(editable, defaultVcs, vcs, fs).Ok?
  {
  }
}

=== FILE: egg_info.dfy ===
/**
  Reading an egg-info metadata file line by line (`egg_info_lines`) and
  picking the requirement lines of `requires.txt` that apply to the
  requested extras (`requirements`), from `pip/req/req_install.py`.
  The file's text is a parameter: `None` when the file is missing.
 */
module EggInfo {
  import opened Common
  import opened Text

  /**
    The lines of `data` for `str.splitlines`, cut at every line boundary:
    no line holds a boundary, and putting the boundaries back between the
    lines gives `data`. Python differs only in empty pieces (a CR LF pair,
    a final boundary, an empty text), which every caller drops.
   */
  function SplitLines(data: string): (lines: seq<string>)
    ensures forall i, k :: 0 <= i < |lines| && 0 <= k < |lines[i]| ==> !IsLineBreak(lines[i][k])
    ensures RejoinsTo(lines, data)
  {
    SplitByRejoin(data, IsLineBreak);
    SplitBy(data, IsLineBreak)
  }

  /** Putting the line boundaries of `data` back between `lines` gives `data`. */
  ghost predicate RejoinsTo(lines: seq<string>, data: string) {
    |lines| == |Cuts(data, IsLineBreak)| + 1 && Rejoin(lines, Cuts(data, IsLineBreak)) == data
  }

  /** A stripped line that is kept: not empty and not a `#` comment. */
  predicate IsKept(line: string) {
    line != [] && line[0] != '#'
  }

  /** Every line stripped of its surrounding whitespace, in order. */
  function StripAll(lines: seq<string>): (r: seq<string>)
    ensures |r| == |lines|
    ensures forall i :: 0 <= i < |lines| ==> r[i] == Strip(lines[i])
  {
    seq(|lines|, i requires 0 <= i < |lines| => Strip(lines[i]))
  }

  /** The kept lines among already stripped ones, in their original order. */
  function KeptLines(stripped: seq<string>): (r: seq<string>)
    ensures |r| <= |stripped|
    ensures forall i :: 0 <= i < |r| ==> IsKept(r[i])
    ensures forall x :: x in r <==> x in stripped && IsKept(x)
    decreases |stripped|
  {
    if stripped == [] then []
    else (if IsKept(stripped[0]) then [stripped[0]] else []) + KeptLines(stripped[1..])
  }

  /** Keeping lines commutes with concatenation, so the original order is preserved. */
  lemma {:induction false} KeptLinesAppend(a: seq<string>, b: seq<string>)
    ensures KeptLines(a + b) == KeptLines(a) + KeptLines(b)
    decreases |a|
  {
    if a != [] {
      assert (a + b)[1..] == a[1..] + b;
      KeptLinesAppend(a[1..], b);
    } else {
      assert a + b == b;
    }
  }

  /**
    `egg_info_lines`: the stripped lines of the metadata file, in order,
    leaving out empty lines and `#` comments; nothing for a missing or
    empty file.
   */
  function EggInfoLines(data: Option<string>): (r: seq<string>)
    ensures data.None? || data.value == [] ==> r == []
    ensures forall i :: 0 <= i < |r| ==> IsKept(r[i]) && !IsSpace(r[i][0]) && !IsSpace(r[i][|r[i]| - 1])
    ensures data.Some? ==> forall x :: x in r <==> IsKept(x) && x in StripAll(SplitLines(data.value))
    ensures data.Some? ==> r == KeptLines(StripAll(SplitLines(data.value)))
  {
    if data.None? then []
    else
      var stripped := StripAll(SplitLines(data.value));
      var r := KeptLines(stripped);
      assert forall i :: 0 <= i < |r| ==> r[i] in stripped;
      if data.value == [] then
        EmptyTextHasNoLines();
        []
      else r
  }

  /** An empty text has one empty line, which is dropped. */
  lemma EmptyTextHasNoLines()
    ensures KeptLines(StripAll(SplitLines([]))) == []
  {
    assert SplitBy([], IsLineBreak) == [[]];
    assert StripAll([[]]) == [[]];
    assert KeptLines([[]]) == [] + KeptLines([]);
  }

  /**
    The lines of two texts joined at a line boundary are the lines of the
    first followed by those of the second: order and repetitions are kept.
   */
  lemma EggInfoLinesAppend(a: string, c: char, b: string)
    requires IsLineBreak(c)
    ensures EggInfoLines(Some(a + [c] + b)) == EggInfoLines(Some(a)) + EggInfoLines(Some(b))
  {
    SplitByAppend(a, c, b, IsLineBreak);
    var x := SplitLines(a);
    var y := SplitLines(b);
    assert StripAll(x + y) == StripAll(x) + StripAll(y);
    KeptLinesAppend(StripAll(x), StripAll(y));
  }

  // ---------------------------------------------------------------------
  // requirements(extras)
  // ---------------------------------------------------------------------

  /** The characters that end the lazy `(.*?)` of the section pattern. */
  predicate EndsSectionName(c: char) {
    c == ']' || c == '\n'
  }

  /**
    `re.match(r'\[(.*?)\]', line.lower())`: the section name of a line that
    begins with `[`, up to the first `]`, which no line feed may precede.
   */
  function SectionHeader(line: string): (r: Option<string>)
    ensures var low := Lower(line);
      r.Some? ==> && |r.value| + 2 <= |low| && low[0] == '[' && low[|r.value| + 1] == ']'
                  && r.value == low[1..|r.value| + 1] && ']' !in r.value && '\n' !in r.value
    ensures var low := Lower(line);
      r.None? ==> forall j :: 1 <= j < |low| && low[0] == '[' && low[j] == ']' ==> '\n' in low[1..j]
  {
    var low := Lower(line);
    if low == [] || low[0] != '[' then None
    else
      var j := FirstWhere(low, EndsSectionName, 1);
      if j < |low| && low[j] == ']' then Some(low[1..j])
      else
        assert forall k :: 1 <= k < |low| && low[k] == ']' ==> '\n' in low[1..k] by {
          forall k | 1 <= k < |low| && low[k] == ']'
            ensures '\n' in low[1..k]
          {
            assert EndsSectionName(low[k]);
            assert low[j] == '\n' && low[1..k][j - 1] == low[j];
          }
        }
        None
  }

  /** The current section after reading `line`: a header switches to its name. */
  function NextSection(section: string, line: string): string {
    match SectionHeader(line)
    case Some(name) => name
    case None => section
  }

  /** What reading `line` yields: nothing for a header or a line of an unrequested section. */
  function Emitted(section: string, line: string, extras: seq<string>): seq<string> {
    if SectionHeader(line).Some? || (section != [] && section !in extras) then [] else [line]
  }

  /**
    The loop of `requirements`: header lines switch the current section
    and are never yielded; any other line is yielded unless the current
    section is non-empty and not among `extras`.
   */
  function RequirementsFrom(lines: seq<string>, section: string, extras: seq<string>): seq<string>
    decreases |lines|
  {
    if lines == [] then []
    else
      Emitted(section, lines[0], extras)
      + RequirementsFrom(lines[1..], NextSection(section, lines[0]), extras)
  }

  /** The loop never yields a header line, and yields only lines of its input. */
  lemma {:induction false} RequirementsFromYieldsLines(lines: seq<string>, section: string, extras: seq<string>)
    ensures forall x :: x in RequirementsFrom(lines, section, extras) ==> SectionHeader(x).None? && x in lines
    decreases |lines|
  {
    if lines != [] {
      var next := NextSection(section, lines[0]);
      RequirementsFromYieldsLines(lines[1..], next, extras);
      assert forall x :: x in lines[1..] ==> x in lines;
    }
  }

  /** The section line `i` falls under: the name in the nearest header above it, "" if none. */
  function SectionBefore(lines: seq<string>, i: nat): string
    requires i <= |lines|
  {
    if i == 0 then [] else NextSection(SectionBefore(lines, i - 1), lines[i - 1])
  }

  /** Line `i` is a requirement that applies: not a header, and in no section or a requested one. */
  predicate Selected(lines: seq<string>, extras: seq<string>, i: nat)
    requires i < |lines|
  {
    && SectionHeader(lines[i]).None?
    && (SectionBefore(lines, i) == [] || SectionBefore(lines, i) in extras)
  }

  /** The selected lines from position `i` on, in order. */
  function SelectedFrom(lines: seq<string>, extras: seq<string>, i: nat): seq<string>
    requires i <= |lines|
    decreases |lines| - i
  {
    if i == |lines| then []
    else (if Selected(lines, extras, i) then [lines[i]] else []) + SelectedFrom(lines, extras, i + 1)
  }

  /** One turn of the loop over `lines[i..]`, in terms of the section line `i` falls under. */
  lemma RequirementsFromStep(lines: seq<string>, extras: seq<string>, i: nat)
    requires i < |lines|
    ensures RequirementsFrom(lines[i..], SectionBefore(lines, i), extras)
            == Emitted(SectionBefore(lines, i), lines[i], extras)
               + RequirementsFrom(lines[i + 1..], SectionBefore(lines, i + 1), extras)
  {
    var tail := lines[i..];
    assert tail[0] == lines[i] && tail[1..] == lines[i + 1..];
  }

  /**
    The loop, started at line `i` in the section that line falls under,
    yields exactly the selected lines from there on.
   */
  lemma {:induction false} RequirementsFromSelects(lines: seq<string>, extras: seq<string>, i: nat)
    requires i <= |lines|
    ensures RequirementsFrom(lines[i..], SectionBefore(lines, i), extras) == SelectedFrom(lines, extras, i)
    decreases |lines| - i
  {
    if i == |lines| {
      assert lines[i..] == [];
    } else {
      RequirementsFromStep(lines, extras, i);
      RequirementsFromSelects(lines, extras, i + 1);
      EmittedIsSelected(lines, extras, i);
    }
  }

  /** What the loop yields at line `i` is that line exactly when it is selected. */
  lemma EmittedIsSelected(lines: seq<string>, extras: seq<string>, i: nat)
    requires i < |lines|
    ensures Emitted(SectionBefore(lines, i), lines[i], extras)
            == if Selected(lines, extras, i) then [lines[i]] else []
  {
  }

  /**
    `requirements(extras)` read from `requires.txt` (`data`): exactly the
    selected lines, in file order. No `[section]` header is ever returned,
    and a line inside a named section is returned only when that section
    is one of `extras`.
   */
  function Requirements(data: Option<string>, extras: seq<string>): (r: seq<string>)
    ensures r == SelectedFrom(EggInfoLines(data), extras, 0)
    ensures forall i :: 0 <= i < |r| ==> SectionHeader(r[i]).None? && r[i] in EggInfoLines(data)
  {
    var lines := EggInfoLines(data);
    RequirementsFromSelects(lines, extras, 0);
    RequirementsFromYieldsLines(lines, [], extras);
    assert lines[0..] == lines;
    RequirementsFrom(lines, [], extras)
  }

  /** A line is among the selected ones from `i` on exactly when it is selected at some position from `i` on. */
  lemma {:induction false} SelectedFromMembers(lines: seq<string>, extras: seq<string>, i: nat, x: string)
    requires i <= |lines|
    ensures x in SelectedFrom(lines, extras, i) <==>
            exists j :: i <= j < |lines| && Selected(lines, extras, j) && lines[j] == x
    decreases |lines| - i
  {
    if i < |lines| {
      var head := if Selected(lines, extras, i) then [lines[i]] else [];
      var rest := SelectedFrom(lines, extras, i + 1);
      assert SelectedFrom(lines, extras, i) == head + rest;
      SelectedFromMembers(lines, extras, i + 1, x);
      if x in head {
        assert Selected(lines, extras, i) && lines[i] == x;
      } else if x in rest {
        var j :| i + 1 <= j < |lines| && Selected(lines, extras, j) && lines[j] == x;
      } else {
        forall j | i <= j < |lines| && Selected(lines, extras, j)
          ensures lines[j] != x
        {
        }
      }
    }
  }

  /**
    A line that only ever appears under named sections that were not
    requested never comes out.
   */
  lemma UnrequestedSectionSkipped(data: Option<string>, extras: seq<string>, x: string)
    requires var lines := EggInfoLines(data);
      forall j :: 0 <= j < |lines| && lines[j] == x ==>
        SectionBefore(lines, j) != [] && SectionBefore(lines, j) !in extras
    ensures x !in Requirements(data, extras)
  {
    UnrequestedLineSkipped(EggInfoLines(data), extras, x);
  }

  lemma UnrequestedLineSkipped(lines: seq<string>, extras: seq<string>, x: string)
    requires forall j :: 0 <= j < |lines| && lines[j] == x ==>
               SectionBefore(lines, j) != [] && SectionBefore(lines, j) !in extras
    ensures x !in SelectedFrom(lines, extras, 0)
  {
    SelectedFromMembers(lines, extras, 0, x);
  }
}

=== FILE: install_command.dfy ===
/**
  `pip install` (`InstallCommand.run` in `pip/commands/install.py`): how the
  command line options are normalised before anything is fetched, and
  which steps the command then takes. Fetching, building and installing
  are left to `RequirementSet`; only whether each step runs, and whether
  it fails, is modelled.
 */
module InstallCommand {
  import opened Common
  import opened Text
  import Locations

  /** The options `run` reads; a falsy Python value (`None`, `""`, `[]`) is `None` or empty here. */
  datatype Options = Options(
    noInstall: bool,
    noDownload: bool,
    noClean: bool,
    buildDir: string,
    downloadDir: Option<string>,
    useUserSite: bool,
    installOptions: seq<string>,
    targetDir: Option<string>,
    ignoreInstalled: bool,
    indexUrl: string,
    extraIndexUrls: seq<string>,
    noIndex: bool,
    useMirrors: bool,
    mirrors: seq<string>,
    downloadCache: Option<string>
  )

  /** What `run` consults besides its options. */
  datatype Env = Env(
    buildPrefix: string,                 // pip.locations.build_prefix
    py: Locations.Interpreter,           // for virtualenv_no_global()
    fs: FileSystem,
    tempTargetDir: string                // what tempfile.mkdtemp() returns
  )

  /** Messages `run` logs while normalising. */
  datatype Notice =
    | DeprecatedBuildOptions             // --no-install, --no-download, --build, --no-clean
    | IgnoringIndexes(urls: seq<string>)
    | DeprecatedUseMirrors
    | DeprecatedMirrors
    | DeprecatedDownloadCache

  /** The options as `run` leaves them, with what it derived from them. */
  datatype Normalized = Normalized(
    options: Options,
    installOptions: seq<string>,
    tempTargetDir: Option<string>,
    indexUrls: seq<string>,
    notices: seq<Notice>
  )

  /** A truthy optional path: given and not empty. */
  predicate Given(o: Option<string>) {
    o.Some? && o.value != []
  }

  /** The options that trigger the deprecation warning for the 1.7 build-option removal. */
  predicate UsesDeprecatedBuildOptions(o: Options, buildPrefix: string) {
    o.noInstall || o.noDownload || o.buildDir != buildPrefix || o.noClean
  }

  /**
    The index URLs the package finder is given: none with `--no-index`,
    else `--index-url` followed by the extra ones; mirrors are added last,
    even under `--no-index`.
   */
  function IndexUrls(o: Options): (r: seq<string>)
    ensures |r| == (if o.noIndex then 0 else 1 + |o.extraIndexUrls|) + |o.mirrors|
    ensures o.noIndex ==> r == o.mirrors
    ensures !o.noIndex ==> r[0] == o.indexUrl && r[1..1 + |o.extraIndexUrls|] == o.extraIndexUrls
    ensures r[|r| - |o.mirrors|..] == o.mirrors
  {
    var urls := if o.noIndex then [] else [o.indexUrl] + o.extraIndexUrls;
    urls + o.mirrors
  }

  /**
    The flags `run` forces: `--download` means no installation and ignoring
    what is installed, and `--target` also ignores what is installed.
    Nothing else changes.
   */
  function ForcedFlags(o: Options): (r: Options)
    ensures r.noInstall == (o.noInstall || Given(o.downloadDir))
    ensures r.ignoreInstalled == (o.ignoreInstalled || Given(o.downloadDir) || Given(o.targetDir))
    ensures r.(noInstall := o.noInstall, ignoreInstalled := o.ignoreInstalled) == o
  {
    var o1 := if Given(o.downloadDir) then o.(noInstall := true, ignoreInstalled := true) else o;
    if Given(o.targetDir) then o1.(ignoreInstalled := true) else o1
  }

  /**
    The options passed on to `setup.py install`: the user's own, then
    `--user` for a user install, then `--home=<tmp>` for a target install.
   */
  function InstallOptions(o: Options, tempTargetDir: string): (r: seq<string>)
    ensures |r| == |o.installOptions| + (if o.useUserSite then 1 else 0) + (if Given(o.targetDir) then 1 else 0)
    ensures r[..|o.installOptions|] == o.installOptions
    ensures o.useUserSite ==> r[|o.installOptions|] == "--user"
    ensures Given(o.targetDir) ==> r[|r| - 1] == "--home=" + tempTargetDir
  {
    o.installOptions + (if o.useUserSite then ["--user"] else [])
    + (if Given(o.targetDir) then ["--home=" + tempTargetDir] else [])
  }

  /**
    The options as `run` leaves them: the forced flags, and a non-empty
    `--install-option` list replaced by the list passed on to `setup.py`,
    which is the same list object, extended in place. An empty list is
    not the one extended, so it stays empty.
   */
  function LeftOptions(o: Options, installOptions: seq<string>): (r: Options)
    ensures r.(installOptions := o.installOptions) == ForcedFlags(o)
    ensures r.installOptions == if o.installOptions == [] then [] else installOptions
  {
    if o.installOptions == [] then ForcedFlags(o) else ForcedFlags(o).(installOptions := installOptions)
  }

  /** Where each notice stands in the order `run` logs them. */
  function Rank(n: Notice): nat {
    match n
    case DeprecatedBuildOptions => 0
    case IgnoringIndexes(_) => 1
    case DeprecatedUseMirrors => 2
    case DeprecatedMirrors => 3
    case DeprecatedDownloadCache => 4
  }

  /** Notices in strictly increasing `Rank`, so in source order and none twice. */
  predicate Ranked(ns: seq<Notice>) {
    forall i, j :: 0 <= i < j < |ns| ==> Rank(ns[i]) < Rank(ns[j])
  }

  /** Every notice `run` can log while normalising, in the order it checks for them. */
  function Candidates(o: Options): seq<Notice> {
    [DeprecatedBuildOptions, IgnoringIndexes([o.indexUrl] + o.extraIndexUrls),
     DeprecatedUseMirrors, DeprecatedMirrors, DeprecatedDownloadCache]
  }

  /** Whether the option behind notice `n` is given. */
  predicate Triggered(o: Options, buildPrefix: string, n: Notice) {
    match n
    case DeprecatedBuildOptions => UsesDeprecatedBuildOptions(o, buildPrefix)
    case IgnoringIndexes(_) => o.noIndex
    case DeprecatedUseMirrors => o.useMirrors
    case DeprecatedMirrors => o.mirrors != []
    case DeprecatedDownloadCache => Given(o.downloadCache)
  }

  /** The notices of `ns` whose options are given, in the order of `ns`. */
  function Triggering(o: Options, buildPrefix: string, ns: seq<Notice>): seq<Notice> {
    if ns == [] then []
    else (if Triggered(o, buildPrefix, ns[0]) then [ns[0]] else []) + Triggering(o, buildPrefix, ns[1..])
  }

  /** A notice is kept exactly when it is a candidate whose option is given. */
  lemma {:induction false} TriggeringMembers(o: Options, buildPrefix: string, ns: seq<Notice>)
    ensures forall x :: x in Triggering(o, buildPrefix, ns) <==> x in ns && Triggered(o, buildPrefix, x)
  {
    if ns != [] {
      TriggeringMembers(o, buildPrefix, ns[1..]);
      assert forall x :: x in ns <==> x == ns[0] || x in ns[1..];
    }
  }

  /** Keeping some notices of a `Ranked` sequence leaves it `Ranked`. */
  lemma {:induction false} TriggeringRanked(o: Options, buildPrefix: string, ns: seq<Notice>)
    requires Ranked(ns)
    ensures Ranked(Triggering(o, buildPrefix, ns))
  {
    if ns != [] {
      var rest := Triggering(o, buildPrefix, ns[1..]);
      assert Ranked(ns[1..]) by {
        forall i, j | 0 <= i < j < |ns[1..]| ensures Rank(ns[1..][i]) < Rank(ns[1..][j]) {
          assert ns[1..][i] == ns[i + 1] && ns[1..][j] == ns[j + 1];
        }
      }
      TriggeringRanked(o, buildPrefix, ns[1..]);
      TriggeringMembers(o, buildPrefix, ns[1..]);
      forall k | 0 <= k < |rest| ensures Rank(ns[0]) < Rank(rest[k]) {
        assert rest[k] in ns[1..];
        var j :| 0 <= j < |ns[1..]| && ns[1..][j] == rest[k];
        assert ns[j + 1] == rest[k];
      }
    }
  }

  /** What `run` logs while normalising, in order: each notice whose option is given, once. */
  function Notices(o: Options, buildPrefix: string): (r: seq<Notice>)
    ensures DeprecatedBuildOptions in r <==> UsesDeprecatedBuildOptions(o, buildPrefix)
    ensures IgnoringIndexes([o.indexUrl] + o.extraIndexUrls) in r <==> o.noIndex
    ensures DeprecatedUseMirrors in r <==> o.useMirrors
    ensures DeprecatedMirrors in r <==> o.mirrors != []
    ensures DeprecatedDownloadCache in r <==> Given(o.downloadCache)
    ensures forall x :: x in r ==> x in Candidates(o)
    ensures Ranked(r)
    ensures DeprecatedBuildOptions in r ==> r[0] == DeprecatedBuildOptions
    ensures DeprecatedDownloadCache in r ==> r[|r| - 1] == DeprecatedDownloadCache
  {
    var r := Triggering(o, buildPrefix, Candidates(o));
    TriggeringMembers(o, buildPrefix, Candidates(o));
    TriggeringRanked(o, buildPrefix, Candidates(o));
    RankedEnds(r);
    r
  }

  /** In a `Ranked` sequence the lowest-ranked notice can only stand first and the highest only last. */
  lemma RankedEnds(ns: seq<Notice>)
    requires Ranked(ns)
    ensures DeprecatedBuildOptions in ns ==> ns[0] == DeprecatedBuildOptions
    ensures DeprecatedDownloadCache in ns ==> ns[|ns| - 1] == DeprecatedDownloadCache
  {
    forall i | 0 < i < |ns| ensures ns[i] != DeprecatedBuildOptions {
      assert Rank(ns[0]) < Rank(ns[i]);
    }
    forall i | 0 <= i < |ns| - 1 ensures ns[i] != DeprecatedDownloadCache {
      assert Rank(ns[i]) < Rank(ns[|ns| - 1]);
    }
  }

  /** `--target` names an existing path that is not a directory. */
  predicate TargetBlocked(o: Options, fs: FileSystem) {
    Given(o.targetDir) && fs.Exists(o.targetDir.value) && !fs.IsDir(o.targetDir.value)
  }

  /**
    The normalising part of `run`, up to building the package finder.
    `--user` is refused where user site-packages are invisible, and
    `--target` is refused when it names something other than a directory;
    the `--user` check comes first.
   */
  function Normalize(o: Options, env: Env): (r: Result<Normalized>)
    ensures r.Err? <==> (o.useUserSite && Locations.VirtualenvNoGlobal(env.py, env.fs)) || TargetBlocked(o, env.fs)
    ensures r.Err? ==> r.error == if o.useUserSite && Locations.VirtualenvNoGlobal(env.py, env.fs)
                                  then UserSiteNotVisible else TargetNotDirectory
    ensures r.Ok? ==> r.value.options == LeftOptions(o, r.value.installOptions)
    ensures r.Ok? ==> r.value.installOptions == InstallOptions(o, env.tempTargetDir)
    ensures r.Ok? ==> r.value.tempTargetDir == if Given(o.targetDir) then Some(env.tempTargetDir) else None
    ensures r.Ok? ==> r.value.indexUrls == IndexUrls(o)
    ensures r.Ok? ==> r.value.notices == Notices(o, env.buildPrefix)
  {
    if o.useUserSite && Locations.VirtualenvNoGlobal(env.py, env.fs) then Err(UserSiteNotVisible)
    else if TargetBlocked(o, env.fs) then Err(TargetNotDirectory)
    else
      var installOptions := InstallOptions(o, env.tempTargetDir);
      Ok(Normalized(LeftOptions(o, installOptions), installOptions,
                    if Given(o.targetDir) then Some(env.tempTargetDir) else None,
                    IndexUrls(o), Notices(o, env.buildPrefix)))
  }

  /**
    Normalising is stable on the flags it forces: running it again on its
    own output forces nothing new and keeps the index URLs. Only the
    install options may grow, since the list was extended in place.
   */
  lemma NormalizeSettles(o: Options, env: Env)
    requires Normalize(o, env).Ok?
    ensures var n := Normalize(o, env).value;
      Normalize(n.options, env).Ok?
      && Normalize(n.options, env).value.options.(installOptions := n.options.installOptions) == n.options
      && Normalize(n.options, env).value.indexUrls == n.indexUrls
  {
  }

  /**
    A `--user` install with options of its own leaves `--user` in the
    user's option list as well, because the list is extended in place.
   */
  lemma UserFlagReachesOptions(o: Options, env: Env)
    requires o.useUserSite && o.installOptions != [] && !Given(o.targetDir)
    requires Normalize(o, env).Ok?
    ensures Normalize(o, env).value.options.installOptions == o.installOptions + ["--user"]
  {
  }

  /** `--user` is refused in a virtualenv whose `site` directory carries the no-global marker. */
  lemma UserInstallRefusedWithoutGlobalSite(o: Options, env: Env)
    requires o.useUserSite
    requires env.py.hasRealPrefix
    requires env.fs.IsFile(PathJoin(env.py.siteModuleDir, Locations.NoGlobalMarker))
    ensures Normalize(o, env) == Err(UserSiteNotVisible)
  {
  }

  // ---------------------------------------------------------------------
  // The steps of run
  // ---------------------------------------------------------------------

  datatype Step =
    | WarnNoRequirements
    | Prepare                            // requirement_set.prepare_files(finder)
    | Locate                             // requirement_set.locate_files()
    | Install                            // requirement_set.install(...)
    | ReportDownloaded                   // the "Successfully downloaded" branch
    | Cleanup                            // requirement_set.cleanup_files()
    | MoveTarget                         // moving the temporary home into --target

  /** The steps `run` took, and the error it ended with, if any. */
  datatype Run = Run(steps: seq<Step>, raised: Option<Error>)

  /** No step is taken twice. */
  predicate Once(steps: seq<Step>) {
    forall i, j :: 0 <= i < j < |steps| ==> steps[i] != steps[j]
  }

  /**
    Fetching, installing and reporting come before cleanup: only the move
    into `--target` may follow it, and that move comes last.
   */
  predicate Ordered(steps: seq<Step>) {
    && Once(steps)
    && (forall i, j :: 0 <= i < j < |steps| && steps[i] == Cleanup ==> steps[j] == MoveTarget)
    && (forall i :: 0 <= i < |steps| - 1 ==> steps[i] != MoveTarget)
  }

  /**
    Whether `run` cleans up its build directories: unless told not to (or a
    previous build directory was found), and only when it installs or
    downloads.
   */
  predicate CleansUp(o: Options) {
    !o.noClean && (!o.noInstall || Given(o.downloadDir))
  }

  /**
    `run` after normalisation, with what `RequirementSet` reports as
    inputs: whether any requirement was given, and the error the fetching
    step (`prepareError`) or the installing step (`installError`) raises.
    A `PreviousBuildDir` error switches cleanup off before the `finally`.
   */
  function RunSteps(n: Normalized, hasRequirements: bool,
                    prepareError: Option<Error>, installError: Option<Error>): (r: Run)
    ensures !hasRequirements ==> r == Run([WarnNoRequirements], None)
    ensures hasRequirements ==> |r.steps| >= 1 && r.steps[0] == (if n.options.noDownload then Locate else Prepare)
    ensures hasRequirements ==> (Prepare in r.steps <==> !n.options.noDownload)
    ensures hasRequirements ==> (Locate in r.steps <==> n.options.noDownload)
    ensures hasRequirements ==> (Install in r.steps <==> prepareError.None? && !n.options.noInstall)
    ensures hasRequirements ==> (ReportDownloaded in r.steps <==> prepareError.None? && n.options.noInstall)
    ensures hasRequirements ==> WarnNoRequirements !in r.steps && Ordered(r.steps)
    ensures hasRequirements ==>
              (r.raised.None? <==> prepareError.None? && (n.options.noInstall || installError.None?))
    ensures hasRequirements && r.raised.Some? ==>
              r.raised == if prepareError.Some? then prepareError else installError
    ensures hasRequirements ==>
              (Cleanup in r.steps <==> CleansUp(n.options) && r.raised != Some(PreviousBuildDir))
    ensures hasRequirements ==> (MoveTarget in r.steps <==> r.raised.None? && n.tempTargetDir.Some?)
  {
    if !hasRequirements then Run([WarnNoRequirements], None)
    else
      var fetch := if n.options.noDownload then Locate else Prepare;
      var tried :=
        if prepareError.Some? then Run([fetch], prepareError)
        else if !n.options.noInstall then Run([fetch, Install], installError)
        else Run([fetch, ReportDownloaded], None);
      var o := if tried.raised == Some(PreviousBuildDir) then n.options.(noClean := true) else n.options;
      var moved := if tried.raised.None? && n.tempTargetDir.Some? then [MoveTarget] else [];
      var steps := tried.steps + (if CleansUp(o) then [Cleanup] else []) + moved;
      ShapeSteps(tried.steps, CleansUp(o), moved);
      ShapeOrdered(tried.steps, CleansUp(o), moved);
      Run(steps, tried.raised)
  }

  /**
    The shape every run with requirements takes: a fetch, at most one
    follow-up, then cleanup and the move. Which steps such a run holds.
   */
  lemma ShapeSteps(tried: seq<Step>, cleans: bool, moved: seq<Step>)
    requires |tried| <= 2 && |tried| >= 1 && (tried[0] == Prepare || tried[0] == Locate)
    requires |tried| == 2 ==> tried[1] == Install || tried[1] == ReportDownloaded
    requires moved == [] || moved == [MoveTarget]
    ensures var steps := tried + (if cleans then [Cleanup] else []) + moved;
      && steps[0] == tried[0]
      && (Prepare in steps <==> tried[0] == Prepare) && (Locate in steps <==> tried[0] == Locate)
      && (Install in steps <==> Install in tried) && (ReportDownloaded in steps <==> ReportDownloaded in tried)
      && WarnNoRequirements !in steps
      && (Cleanup in steps <==> cleans) && (MoveTarget in steps <==> moved != [])
  {
    var steps := tried + (if cleans then [Cleanup] else []) + moved;
    assert forall x :: x in steps <==> x in tried || (cleans && x == Cleanup) || x in moved;
  }

  /** A run of that shape is `Ordered`. */
  lemma ShapeOrdered(tried: seq<Step>, cleans: bool, moved: seq<Step>)
    requires |tried| <= 2 && |tried| >= 1 && (tried[0] == Prepare || tried[0] == Locate)
    requires |tried| == 2 ==> tried[1] == Install || tried[1] == ReportDownloaded
    requires moved == [] || moved == [MoveTarget]
    ensures Ordered(tried + (if cleans then [Cleanup] else []) + moved)
  {
    var c: seq<Step> := if cleans then [Cleanup] else [];
    if |tried| == 1 {
      assert tried + c + moved == [tried[0]] + c + moved;
    } else {
      assert tried + c + moved == [tried[0], tried[1]] + c + moved;
    }
  }

  /** `--download` never installs, and cleans up after itself unless `--no-clean` is given. */
  lemma DownloadOnlyFetches(o: Options, env: Env, prepareError: Option<Error>, installError: Option<Error>)
    requires Given(o.downloadDir)
    requires Normalize(o, env).Ok?
    ensures var r := RunSteps(Normalize(o, env).value, true, prepareError, installError);
      && Install !in r.steps
      && (Cleanup in r.steps <==> !o.noClean && prepareError != Some(PreviousBuildDir))
  {
  }

  /** Without requirements nothing is fetched, installed or cleaned up. */
  lemma NoRequirementsNoWork(n: Normalized, prepareError: Option<Error>, installError: Option<Error>)
    ensures var r := RunSteps(n, false, prepareError, installError);
      forall s :: s in r.steps ==> s == WarnNoRequirements
  {
  }
}

=== FILE: install_requirement.dfy ===
/**
  Small pure helpers of `InstallRequirement` in `pip/req/req_install.py`:
  naming the members of a source archive (`_clean_zip_name`), deciding
  whether pre-releases are acceptable (`__init__`), and choosing the
  directory a requirement is built in (`build_location`).
 */
module InstallReq {
  import opened Common
  import opened Text

  // ---------------------------------------------------------------------
  // _clean_zip_name
  // ---------------------------------------------------------------------

  /**
    `_clean_zip_name(name, prefix)` with `os.path.sep` as `sep`: the part of
    `name` after `prefix` and one separator, with every separator turned
    into `/`. The source asserts that `name` starts with `prefix + sep`.
   */
  function CleanZipName(name: string, prefix: string, sep: char): (r: string)
    requires StartsWith(name, prefix + [sep])
    ensures |r| == |name| - |prefix| - 1
    ensures forall i :: 0 <= i < |r| ==>
      r[i] == (if name[|prefix| + 1 + i] == sep then '/' else name[|prefix| + 1 + i])
    ensures sep != '/' ==> sep !in r
  {
    ReplaceChar(name[|prefix| + 1..], sep, '/')
  }

  /**
    The archive name loses nothing: when the separator is `/`, or `name`
    held no `/` of its own, turning `/` back into the separator and putting
    `prefix` and a separator in front gives `name` again.
   */
  lemma CleanZipNameRoundTrip(name: string, prefix: string, sep: char)
    requires StartsWith(name, prefix + [sep])
    requires sep == '/' || '/' !in name
    ensures prefix + [sep] + ReplaceChar(CleanZipName(name, prefix, sep), '/', sep) == name
  {
    var r := CleanZipName(name, prefix, sep);
    var back := ReplaceChar(r, '/', sep);
    var n := |prefix| + 1;
    assert name[..n] == prefix + [sep];
    forall i | 0 <= i < |back|
      ensures back[i] == name[n + i]
    {
      if sep != '/' {
        assert name[n + i] in name;
      }
    }
    assert name == name[..n] + name[n..];
  }

  // ---------------------------------------------------------------------
  // prereleases
  // ---------------------------------------------------------------------

  /** One version specifier of a requirement, such as `(">=", "1.0b1")`. */
  datatype Spec = Spec(op: string, version: string)

  /** A specifier that lets pre-releases in: a pre-release version under any operator but `!=`. */
  predicate Admits(spec: Spec, isPre: string -> bool) {
    isPre(spec.version) && spec.op != "!="
  }

  /** `any(is_prerelease(v) and op != "!=" for (op, v) in specs)` */
  function AnyPrerelease(specs: seq<Spec>, isPre: string -> bool): (r: bool)
    ensures r <==> exists i :: 0 <= i < |specs| && Admits(specs[i], isPre)
    decreases |specs|
  {
    if specs == [] then false
    else
      var rest := AnyPrerelease(specs[1..], isPre);
      assert forall i :: 1 <= i < |specs| ==> specs[i] == specs[1..][i - 1];
      Admits(specs[0], isPre) || rest
  }

  /**
    The `prereleases` flag of a requirement: set when asked for, otherwise
    set exactly when the requirement (`None` when there is none) has a
    specifier other than `!=` naming a pre-release; `isPre` is
    `is_prerelease`.
   */
  function Prereleases(asked: bool, specs: Option<seq<Spec>>, isPre: string -> bool): (r: bool)
    ensures r <==> (asked || (specs.Some? && exists i :: 0 <= i < |specs.value| && Admits(specs.value[i], isPre)))
  {
    if asked then true
    else if specs.Some? then AnyPrerelease(specs.value, isPre)
    else false
  }

  /** An exclusion `!=` never makes pre-releases acceptable, whatever version it names. */
  lemma ExclusionsIgnored(asked: bool, specs: seq<Spec>, isPre: string -> bool, v: string)
    ensures Prereleases(asked, Some(specs + [Spec("!=", v)]), isPre) == Prereleases(asked, Some(specs), isPre)
  {
    var t := specs + [Spec("!=", v)];
    assert forall i :: 0 <= i < |specs| ==> t[i] == specs[i];
  }

  // ---------------------------------------------------------------------
  // build_location
  // ---------------------------------------------------------------------

  /** The fields `build_location` reads and writes: `_temp_build_dir` and `_ideal_build_dir`. */
  datatype BuildState = BuildState(tempBuildDir: Option<string>, idealBuildDir: Option<string>)

  /**
    What `build_location` decides: the directory, the requirement's state
    afterwards, and whether the build directory itself must be created
    (`_make_build_dir`).
   */
  datatype Location = Location(path: string, state: BuildState, makesBuildDir: bool)

  /**
    `build_location(build_dir)` for a requirement whose `name` is `None`
    when it has no parsed requirement yet. Such a requirement is built in a
    fresh temporary directory (`freshTemp`, the result of `mkdtemp`), which
    is remembered together with the ideal `build_dir`; a named one is built
    in `build_dir/<name>`, the name lower-cased for an editable.
   */
  function BuildLocation(st: BuildState, name: Option<string>, editable: bool, buildDir: string,
                         freshTemp: string, fs: FileSystem): (r: Location)
    ensures st.tempBuildDir.Some? ==> r == Location(st.tempBuildDir.value, st, false)
    ensures st.tempBuildDir.None? && name.None? ==>
      r == Location(freshTemp, BuildState(Some(freshTemp), Some(buildDir)), false)
    ensures st.tempBuildDir.None? && name.Some? ==>
      && r.state == st
      && r.makesBuildDir == !fs.Exists(buildDir)
      && var dir := if editable then Lower(name.value) else name.value;
         if StartsWith(dir, "/") then r.path == dir else JoinedUnder(r.path, buildDir, dir)
  {
    if st.tempBuildDir.Some? then Location(st.tempBuildDir.value, st, false)
    else if name.None? then Location(freshTemp, BuildState(Some(freshTemp), Some(buildDir)), false)
    else
      var dir := if editable then Lower(name.value) else name.value;
      Location(PathJoin(buildDir, dir), st, !fs.Exists(buildDir))
  }

  /**
    Asking again gives the same directory: a temporary one sticks whatever
    is passed the second time, and a named requirement's depends only on
    the build directory.
   */
  lemma BuildLocationStable(st: BuildState, name: Option<string>, editable: bool, buildDir: string,
                            freshTemp: string, fs: FileSystem,
                            buildDir2: string, freshTemp2: string, fs2: FileSystem)
    requires name.None? || st.tempBuildDir.Some? || buildDir2 == buildDir
    ensures var first := BuildLocation(st, name, editable, buildDir, freshTemp, fs);
      BuildLocation(first.state, name, editable, buildDir2, freshTemp2, fs2).path == first.path
  {
  }
}

=== FILE: locations.dfy ===
/**
  Where pip builds, unpacks, configures and logs, from `pip/locations.py`.
  The interpreter and the machine are input records: what the source reads
  from `sys`, `os`, `pwd`, `tempfile` and `site`, and the outcome of the
  one directory creation it attempts.
 */
module Locations {
  import opened Common
  import opened Text

  /** What the running interpreter reports about itself. */
  datatype Interpreter = Interpreter(
    prefix: string,                 // sys.prefix
    basePrefix: Option<string>,     // sys.base_prefix, None when the attribute is absent
    hasRealPrefix: bool,            // hasattr(sys, 'real_prefix')
    platform: string,               // sys.platform
    version: string,                // sys.version
    windows: bool,                  // pip.compat.WINDOWS
    siteModuleDir: string           // directory of site.__file__
  )

  /** What the machine reports, and the outcome of creating the build directory. */
  datatype Host = Host(
    tempDir: string,                // tempfile.gettempdir()
    cwd: Option<string>,            // os.getcwd(), None when the directory is gone
    euid: int,                      // os.geteuid()
    loginName: string,              // getpass.getuser()
    passwd: map<int, string>,       // pwd: uid -> pw_name
    userSite: string,               // site.USER_SITE
    userDir: string,                // os.path.expanduser('~')
    fs: FileSystem,
    buildDirCreated: bool,          // os.mkdir and the marker write both succeed
    buildDirOwner: Option<int>      // get_path_uid, None for a symlink
  )

  /** `s[:n]` */
  function Head(s: string, n: nat): (r: string)
    ensures |r| == if |s| < n then |s| else n
    ensures StartsWith(s, r)
  {
    if |s| < n then s else s[..n]
  }

  /** Comparing a slice with a literal of its length is a prefix test. */
  lemma HeadIsPrefixTest(s: string, p: string)
    ensures Head(s, |p|) == p <==> StartsWith(s, p)
  {
  }

  // ---------------------------------------------------------------------
  // running_under_virtualenv, virtualenv_no_global
  // ---------------------------------------------------------------------

  /**
    `running_under_virtualenv()`: a virtualenv sets `sys.real_prefix`; a
    PEP 405 venv makes `sys.prefix` differ from `sys.base_prefix`, which
    counts as equal to it when absent.
   */
  function RunningUnderVirtualenv(py: Interpreter): (r: bool)
    ensures py.hasRealPrefix ==> r
    ensures !py.hasRealPrefix ==> (r <==> py.basePrefix.Some? && py.basePrefix.value != py.prefix)
  {
    if py.hasRealPrefix then true
    else py.prefix != py.basePrefix.GetOr(py.prefix)
  }

  const NoGlobalMarker := "no-global-site-packages.txt"

  /**
    `virtualenv_no_global()`: true inside a virtualenv whose `site` module
    directory holds the marker file. The source returns `None`, not
    `False`, in every other case; both are false to its callers.
   */
  function VirtualenvNoGlobal(py: Interpreter, fs: FileSystem): (r: bool)
    ensures r ==> RunningUnderVirtualenv(py)
    ensures r <==> (py.hasRealPrefix || (py.basePrefix.Some? && py.basePrefix.value != py.prefix))
                   && fs.IsFile(PathJoin(py.siteModuleDir, NoGlobalMarker))
  {
    RunningUnderVirtualenv(py) && fs.IsFile(PathJoin(py.siteModuleDir, NoGlobalMarker))
  }

  /** Outside a virtualenv, global site-packages are always visible, marker or not. */
  lemma NoGlobalNeedsVirtualenv(py: Interpreter, fs: FileSystem)
    requires !py.hasRealPrefix && py.basePrefix.GetOr(py.prefix) == py.prefix
    ensures !VirtualenvNoGlobal(py, fs)
  {
  }

  // ---------------------------------------------------------------------
  // _get_build_prefix
  // ---------------------------------------------------------------------

  /** `__get_username()`: the login name on Windows, else the password entry of the effective uid. */
  function Username(py: Interpreter, host: Host): (r: Result<string>)
    ensures py.windows ==> r == Ok(host.loginName)
    ensures !py.windows && host.euid in host.passwd ==> r == Ok(host.passwd[host.euid])
    ensures !py.windows && host.euid !in host.passwd ==> r == Err(UnknownUid(host.euid))
  {
    if py.windows then Ok(host.loginName)
    else if host.euid in host.passwd then Ok(host.passwd[host.euid])
    else Err(UnknownUid(host.euid))
  }

  const BuildDirStem := "pip_build_"

  /** `pip_build_<user>`: the stem, then the user name with every space turned into `_`. */
  function BuildDirName(user: string): (leaf: string)
    ensures |leaf| == |BuildDirStem| + |user| && StartsWith(leaf, BuildDirStem) && ' ' !in leaf
    ensures forall i :: 0 <= i < |user| ==>
              leaf[|BuildDirStem| + i] == if user[i] == ' ' then '_' else user[i]
  {
    var leaf := BuildDirStem + ReplaceChar(user, ' ', '_');
    assert leaf[..|BuildDirStem|] == BuildDirStem;
    leaf
  }

  /** `tempdir/pip_build_<user>`: the build directory name placed directly inside the temp dir. */
  function BuildDirPath(tempDir: string, user: string): (r: string)
    ensures JoinedUnder(r, tempDir, BuildDirName(user))
    ensures StartsWith(r, tempDir)
  {
    var leaf := BuildDirName(user);
    assert leaf[0] == 'p' && !StartsWith(leaf, "/");
    PathJoin(tempDir, leaf)
  }

  /** The outcome of `_get_build_prefix()`: the path, and whether the delete marker was written into it. */
  datatype BuildPrefix = BuildPrefix(path: string, markerWritten: bool)

  /**
    `_get_build_prefix()`. On Windows the path is returned untouched.
    Elsewhere the directory is created and marked for deletion; when that
    fails, an existing directory is accepted only if the effective user
    owns it, and a symlink (no owner) or a foreign owner is refused.
   */
  function GetBuildPrefix(py: Interpreter, host: Host): (r: Result<BuildPrefix>)
    ensures Username(py, host).Err? ==> r == Err(Username(py, host).error)
    ensures Username(py, host).Ok? ==>
      var path := BuildDirPath(host.tempDir, Username(py, host).value);
      && (py.windows ==> r == Ok(BuildPrefix(path, false)))
      && (!py.windows && host.buildDirCreated ==> r == Ok(BuildPrefix(path, true)))
      && (!py.windows && !host.buildDirCreated ==>
            (r.Err? <==> host.buildDirOwner != Some(host.euid))
            && (r.Err? ==> r.error == BuildDirNotOwned(path))
            && (r.Ok? ==> r.value == BuildPrefix(path, false)))
  {
    var user :- Username(py, host);
    var path := BuildDirPath(host.tempDir, user);
    if py.windows then Ok(BuildPrefix(path, false))
    else if host.buildDirCreated then Ok(BuildPrefix(path, true))
    else if host.buildDirOwner != Some(host.euid) then Err(BuildDirNotOwned(path))
    else Ok(BuildPrefix(path, false))
  }

  /** Users whose names differ only in spaces versus underscores share one build directory. */
  lemma BuildPrefixSpacesShared(tempDir: string, a: string, b: string)
    requires |a| == |b|
    requires forall i :: 0 <= i < |a| ==> a[i] == b[i] || (IsBlank(a[i]) && IsBlank(b[i]))
    ensures BuildDirPath(tempDir, a) == BuildDirPath(tempDir, b)
  {
    var ra := BuildDirName(a);
    var rb := BuildDirName(b);
    forall i | 0 <= i < |ra|
      ensures ra[i] == rb[i]
    {
      if i >= |BuildDirStem| {
        assert ra[i] == (if a[i - |BuildDirStem|] == ' ' then '_' else a[i - |BuildDirStem|]);
      } else {
        assert ra[i] == BuildDirStem[i] == rb[i];
      }
    }
    assert ra == rb;
  }

  /** A space or an underscore: the characters that look alike in a build directory name. */
  predicate IsBlank(c: char) {
    c == ' ' || c == '_'
  }

  // ---------------------------------------------------------------------
  // build_prefix, src_prefix
  // ---------------------------------------------------------------------

  datatype Prefixes = Prefixes(build: string, src: string, markerWritten: bool)

  /**
    The module-level `build_prefix` and `src_prefix`: both under
    `sys.prefix` in a virtualenv; otherwise the per-user build prefix and
    `src` in the working directory, which must still exist.
   */
  function GetPrefixes(py: Interpreter, host: Host): (r: Result<Prefixes>)
    ensures RunningUnderVirtualenv(py) ==>
      r == Ok(Prefixes(PathJoin(py.prefix, "build"), PathJoin(py.prefix, "src"), false))
    ensures !RunningUnderVirtualenv(py) ==>
      && (GetBuildPrefix(py, host).Err? ==> r == Err(GetBuildPrefix(py, host).error))
      && (GetBuildPrefix(py, host).Ok? && host.cwd.None? ==> r == Err(MissingWorkingDirectory))
      && (GetBuildPrefix(py, host).Ok? && host.cwd.Some? ==>
            r.Ok? && r.value.build == GetBuildPrefix(py, host).value.path
            && r.value.src == PathJoin(host.cwd.value, "src")
            && r.value.markerWritten == GetBuildPrefix(py, host).value.markerWritten)
  {
    if RunningUnderVirtualenv(py) then
      Ok(Prefixes(PathJoin(py.prefix, "build"), PathJoin(py.prefix, "src"), false))
    else
      var bp :- GetBuildPrefix(py, host);
      if host.cwd.None? then Err(MissingWorkingDirectory)
      else Ok(Prefixes(bp.path, PathJoin(host.cwd.value, "src"), bp.markerWritten))
  }

  /** Inside a virtualenv the prefixes never fail and never depend on the machine. */
  lemma VirtualenvPrefixesIgnoreHost(py: Interpreter, host1: Host, host2: Host)
    requires RunningUnderVirtualenv(py)
    ensures GetPrefixes(py, host1) == GetPrefixes(py, host2)
    ensures GetPrefixes(py, host1).Ok?
  {
  }

  // ---------------------------------------------------------------------
  // bin, storage, config and log paths
  // ---------------------------------------------------------------------

  datatype PlatformPaths = PlatformPaths(
    binPy: string,
    binUser: string,
    storageDir: string,
    configBasename: string,
    configFile: string,
    logFile: string
  )

  /** A standard Mac OS X framework build: the platform starts `darwin`, the prefix `/System/Library/`. */
  predicate IsMacFramework(py: Interpreter) {
    Head(py.platform, 6) == "darwin" && Head(py.prefix, 16) == "/System/Library/"
  }

  /**
    The module-level platform paths. Windows uses `Scripts` directories,
    falling back to `bin` for both when `prefix/Scripts` does not exist,
    and `~/pip/pip.ini`; other systems use `bin` and `~/.pip/pip.conf`. The
    log lives in the storage directory, except on a Mac OS X framework
    build, which installs scripts to `/usr/local/bin` and logs to
    `~/Library/Logs/pip.log`.
   */
  function GetPlatformPaths(py: Interpreter, host: Host): (r: PlatformPaths)
    ensures py.windows ==>
      var d := if host.fs.Exists(PathJoin(py.prefix, "Scripts")) then "Scripts" else "bin";
      && r.binPy == PathJoin(py.prefix, d) && r.binUser == PathJoin(host.userSite, d)
      && r.storageDir == PathJoin(host.userDir, "pip") && r.configBasename == "pip.ini"
    ensures !py.windows ==>
      && r.binUser == PathJoin(host.userSite, "bin")
      && r.storageDir == PathJoin(host.userDir, ".pip") && r.configBasename == "pip.conf"
      && r.binPy == (if IsMacFramework(py) then "/usr/local/bin" else PathJoin(py.prefix, "bin"))
    ensures r.configFile == PathJoin(r.storageDir, r.configBasename)
    ensures r.logFile == if !py.windows && IsMacFramework(py) then PathJoin(host.userDir, "Library/Logs/pip.log")
                         else PathJoin(r.storageDir, "pip.log")
  {
    if py.windows then
      var scripts := PathJoin(py.prefix, "Scripts");
      var d := if host.fs.Exists(scripts) then "Scripts" else "bin";
      var storage := PathJoin(host.userDir, "pip");
      PlatformPaths(PathJoin(py.prefix, d), PathJoin(host.userSite, d), storage, "pip.ini",
                    PathJoin(storage, "pip.ini"), PathJoin(storage, "pip.log"))
    else
      var storage := PathJoin(host.userDir, ".pip");
      var paths := PlatformPaths(PathJoin(py.prefix, "bin"), PathJoin(host.userSite, "bin"), storage,
                                 "pip.conf", PathJoin(storage, "pip.conf"), PathJoin(storage, "pip.log"));
      if IsMacFramework(py) then
        paths.(binPy := "/usr/local/bin", logFile := PathJoin(host.userDir, "Library/Logs/pip.log"))
      else paths
  }

  /**
    The interpreter's and the user's script directories always have the
    same last component, except for the Mac OS X framework override.
   */
  lemma BinDirsAgree(py: Interpreter, host: Host)
    requires py.windows || !IsMacFramework(py)
    ensures var r := GetPlatformPaths(py, host);
      || (EndsWith(r.binPy, "Scripts") && EndsWith(r.binUser, "Scripts"))
      || (EndsWith(r.binPy, "bin") && EndsWith(r.binUser, "bin"))
  {
    var r := GetPlatformPaths(py, host);
    var d := if py.windows && host.fs.Exists(PathJoin(py.prefix, "Scripts")) then "Scripts" else "bin";
    assert d[0] != '/';
    assert r.binPy == PathJoin(py.prefix, d) && r.binUser == PathJoin(host.userSite, d);
    assert EndsWith(r.binPy, d) && EndsWith(r.binUser, d);
  }

  // ---------------------------------------------------------------------
  // distutils_scheme
  // ---------------------------------------------------------------------

  /** The install locations of a distribution: one value per distutils `SCHEME_KEYS` entry. */
  datatype Scheme = Scheme(purelib: string, platlib: string, headers: string, scripts: string, data: string)

  /** What `finalize_options` leaves on the distutils `install` command. */
  datatype Finalized = Finalized(installLib: Option<string>, scheme: Scheme)

  /** `prefix/include/site/python<X.Y>/<dist_name>`, with `sys.version[:3]` as `X.Y`. */
  function VenvHeaders(py: Interpreter, distName: string): string {
    PathJoinAll(py.prefix, ["include", "site", "python" + Head(py.version, 3), distName])
  }

  /**
    `distutils_scheme(dist_name, root=root)` after `finalize_options`: an
    `install_lib` overrides both library directories; in a virtualenv the
    headers go under the virtualenv's `include/site`, re-rooted below
    `root` when one is given; everything else is the finalized value.
   */
  function DistutilsScheme(py: Interpreter, distName: string, root: Option<string>, fin: Finalized): (r: Scheme)
    ensures fin.installLib.Some? ==> r.purelib == fin.installLib.value && r.platlib == fin.installLib.value
    ensures fin.installLib.None? ==> r.purelib == fin.scheme.purelib && r.platlib == fin.scheme.platlib
    ensures r.scripts == fin.scheme.scripts && r.data == fin.scheme.data
    ensures !RunningUnderVirtualenv(py) ==> r.headers == fin.scheme.headers
    ensures RunningUnderVirtualenv(py) && root.None? ==> r.headers == VenvHeaders(py, distName)
    ensures RunningUnderVirtualenv(py) && root.Some? ==>
      var h := VenvHeaders(py, distName);
      && h != []
      && (StartsWith(h[1..], "/") ==> r.headers == h[1..])
      && (!StartsWith(h[1..], "/") ==> JoinedUnder(r.headers, root.value, h[1..]))
  {
    var s := fin.scheme;
    var s := if fin.installLib.Some? then s.(purelib := fin.installLib.value, platlib := fin.installLib.value) else s;
    if !RunningUnderVirtualenv(py) then s
    else
      var h := VenvHeaders(py, distName);
      NonEmptyJoin(py.prefix, ["include", "site", "python" + Head(py.version, 3), distName]);
      if root.Some? then s.(headers := PathJoin(root.value, h[1..]))
      else s.(headers := h)
  }

  /** Joining a non-empty relative part never gives the empty path. */
  lemma NonEmptyJoin(a: string, rest: seq<string>)
    requires rest != [] && rest[0] != []
    ensures PathJoinAll(a, rest) != []
  {
    JoinKeepsNonEmpty(PathJoin(a, rest[0]), rest[1..]);
  }

  lemma {:induction false} JoinKeepsNonEmpty(a: string, rest: seq<string>)
    requires a != []
    ensures PathJoinAll(a, rest) != []
    decreases |rest|
  {
    if rest != [] {
      JoinKeepsNonEmpty(PathJoin(a, rest[0]), rest[1..]);
    }
  }

  /**
    Re-rooting under `/` changes nothing for an absolute virtualenv prefix
    other than `/` that does not start with `//`, and a relative `dist_name`.
   */
  lemma RootSlashKeepsHeaders(py: Interpreter, distName: string, fin: Finalized)
    requires RunningUnderVirtualenv(py)
    requires |py.prefix| >= 2 && py.prefix[0] == '/' && py.prefix[1] != '/'
    requires !StartsWith(distName, "/")
    ensures DistutilsScheme(py, distName, Some("/"), fin) == DistutilsScheme(py, distName, None, fin)
  {
    var h := VenvHeaders(py, distName);
    var parts := ["include", "site", "python" + Head(py.version, 3), distName];
    assert !StartsWith(parts[2], "/") by { assert parts[2][0] == 'p'; }
    JoinKeepsPrefix(py.prefix, parts);
    assert h[..|py.prefix|] == py.prefix;
    assert h[0] == '/' && h[1] != '/';
    assert !StartsWith(h[1..], "/");
    assert PathJoin("/", h[1..]) == "/" + h[1..] == h;
  }

  /** Joining relative parts onto `a` keeps `a` in front. */
  lemma {:induction false} JoinKeepsPrefix(a: string, rest: seq<string>)
    requires forall i :: 0 <= i < |rest| ==> !StartsWith(rest[i], "/")
    ensures StartsWith(PathJoinAll(a, rest), a)
    decreases |rest|
  {
    if rest != [] {
      var b := PathJoin(a, rest[0]);
      JoinKeepsPrefix(b, rest[1..]);
      assert StartsWith(b, a);
      var r := PathJoinAll(b, rest[1..]);
      assert r[..|a|] == r[..|b|][..|a|];
    }
  }
}

=== FILE: text.dfy ===
/**
  String helpers with the meaning Python gives them: `startswith`, ASCII
  `lower`, `replace` of one character, `split` on a separator, `strip`,
  `splitlines`, and POSIX `os.path.join`.
 */
module Text {

  predicate StartsWith(s: string, p: string) {
    |p| <= |s| && s[..|p|] == p
  }

  function LowerChar(c: char): char {
    if 'A' <= c <= 'Z' then (c as int + 32) as char else c
  }

  /** `str.lower` restricted to ASCII letters. */
  function Lower(s: string): (r: string)
    ensures |r| == |s|
    ensures forall i :: 0 <= i < |s| ==> r[i] == LowerChar(s[i])
  {
    seq(|s|, i requires 0 <= i < |s| => LowerChar(s[i]))
  }

  /** `s.replace(a, b)` for single characters. */
  function ReplaceChar(s: string, a: char, b: char): (r: string)
    ensures |r| == |s|
    ensures a != b ==> a !in r
    ensures forall i :: 0 <= i < |s| ==> r[i] == (if s[i] == a then b else s[i])
  {
    seq(|s|, i requires 0 <= i < |s| => if s[i] == a then b else s[i])
  }

  /** The first index at or after `from` whose character satisfies `p`, or `|s|`. */
  function FirstWhere(s: string, p: char -> bool, from: nat): (r: nat)
    requires from <= |s|
    ensures from <= r <= |s|
    ensures r < |s| ==> p(s[r])
    ensures forall j :: from <= j < r ==> !p(s[j])
    decreases |s| - from
  {
    if from == |s| || p(s[from]) then from else FirstWhere(s, p, from + 1)
  }

  /** `FirstWhere` stops at `b` when nothing before `b` satisfies `p` and `b` does or is the end. */
  lemma FirstWhereAt(s: string, p: char -> bool, from: nat, b: nat)
    requires from <= b <= |s|
    requires forall j :: from <= j < b ==> !p(s[j])
    requires b == |s| || p(s[b])
    ensures FirstWhere(s, p, from) == b
  {
  }

  /** The test for one character, shared so that every split on `c` uses the same function. */
  function Is(c: char): char -> bool {
    x => x == c
  }

  /** Everything before the first `c` (all of `s` when there is none): `s.split(c, 1)[0]`. */
  function BeforeFirst(s: string, c: char): (r: string)
    ensures StartsWith(s, r)
    ensures c !in r
    ensures |r| < |s| ==> s[|r|] == c
  {
    s[..FirstWhere(s, Is(c), 0)]
  }

  /**
    Cuts `s` at every character satisfying `isSep`, dropping those
    characters: Python's `s.split(sep)` when `isSep` is equality with `sep`.
   */
  function SplitBy(s: string, isSep: char -> bool): (parts: seq<string>)
    ensures |parts| >= 1
    ensures forall i, k :: 0 <= i < |parts| && 0 <= k < |parts[i]| ==> !isSep(parts[i][k])
    decreases |s|
  {
    var i := FirstWhere(s, isSep, 0);
    if i == |s| then [s] else [s[..i]] + SplitBy(s[i + 1..], isSep)
  }

  function Split(s: string, sep: char): (parts: seq<string>)
    ensures |parts| >= 1
    ensures forall i :: 0 <= i < |parts| ==> sep !in parts[i]
  {
    SplitBy(s, Is(sep))
  }

  /** `sep.join(parts)`, the inverse of `Split`. */
  function Join(parts: seq<string>, sep: char): string
    requires |parts| >= 1
  {
    if |parts| == 1 then parts[0] else parts[0] + [sep] + Join(parts[1..], sep)
  }

  lemma {:induction false} JoinSplit(s: string, sep: char)
    ensures Join(Split(s, sep), sep) == s
    decreases |s|
  {
    var i := FirstWhere(s, Is(sep), 0);
    if i < |s| {
      JoinSplit(s[i + 1..], sep);
      assert s == s[..i] + [sep] + s[i + 1..];
    }
  }

  /** The characters of `s` that satisfy `isSep`, in order: the ones `SplitBy` cuts out. */
  function Cuts(s: string, isSep: char -> bool): string
    decreases |s|
  {
    if s == [] then [] else (if isSep(s[0]) then [s[0]] else []) + Cuts(s[1..], isSep)
  }

  /** Puts cut pieces back together, separator `k` between piece `k` and piece `k + 1`. */
  function Rejoin(parts: seq<string>, seps: string): string
    requires |parts| == |seps| + 1
    decreases |seps|
  {
    if seps == [] then parts[0] else parts[0] + [seps[0]] + Rejoin(parts[1..], seps[1..])
  }

  /** The first cut character is the one `FirstWhere` finds. */
  lemma {:induction false} CutsAt(s: string, isSep: char -> bool, i: nat)
    requires i == FirstWhere(s, isSep, 0)
    ensures Cuts(s, isSep) == if i == |s| then [] else [s[i]] + Cuts(s[i + 1..], isSep)
    decreases |s|
  {
    if s != [] && i > 0 {
      var t := s[1..];
      forall j | 0 <= j < i - 1
        ensures !isSep(t[j])
      {
        assert t[j] == s[j + 1];
      }
      if i < |s| {
        assert t[i - 1] == s[i];
      }
      FirstWhereAt(t, isSep, 0, i - 1);
      CutsAt(t, isSep, i - 1);
      if i < |s| {
        assert t[i - 1 + 1..] == s[i + 1..];
      }
    }
  }

  /**
    Splitting loses nothing: there is one more piece than cut characters,
    and putting the cut characters back between the pieces gives `s`.
   */
  lemma {:induction false} SplitByRejoin(s: string, isSep: char -> bool)
    ensures |SplitBy(s, isSep)| == |Cuts(s, isSep)| + 1
    ensures Rejoin(SplitBy(s, isSep), Cuts(s, isSep)) == s
    decreases |s|
  {
    var i := FirstWhere(s, isSep, 0);
    CutsAt(s, isSep, i);
    if i < |s| {
      SplitByRejoin(s[i + 1..], isSep);
      assert s == s[..i] + [s[i]] + s[i + 1..];
    }
  }

  /** Splitting two texts joined by a separator gives the pieces of the first, then those of the second. */
  lemma {:induction false} SplitByAppend(s: string, c: char, b: string, isSep: char -> bool)
    requires isSep(c)
    ensures SplitBy(s + [c] + b, isSep) == SplitBy(s, isSep) + SplitBy(b, isSep)
    decreases |s|
  {
    var t := s + [c] + b;
    var i := FirstWhere(s, isSep, 0);
    var j := FirstWhere(t, isSep, 0);
    assert forall k :: 0 <= k < |s| ==> t[k] == s[k];
    assert t[|s|] == c;
    if j < |s| {
      assert isSep(s[j]);
    }
    if i < |s| {
      assert isSep(t[i]);
    }
    if i == |s| {
      assert j == |s|;
      assert t[..j] == s && t[j + 1..] == b;
    } else {
      assert j == i;
      assert t[..j] == s[..i];
      assert t[j + 1..] == s[i + 1..] + [c] + b;
      SplitByAppend(s[i + 1..], c, b, isSep);
    }
  }

  /** A text without the separator is a single piece. */
  lemma SplitWithoutSep(b: string, sep: char)
    requires sep !in b
    ensures Split(b, sep) == [b]
  {
    forall k | 0 <= k < |b|
      ensures !Is(sep)(b[k])
    {
      assert b[k] in b;
    }
    FirstWhereAt(b, Is(sep), 0, |b|);
  }

  /** Splitting `s + [sep]` yields the pieces of `s` and one empty piece after them. */
  lemma SplitAppendSep(s: string, sep: char)
    ensures Split(s + [sep], sep) == Split(s, sep) + [""]
  {
    SplitByAppend(s, sep, [], Is(sep));
    assert s + [sep] + [] == s + [sep];
    SplitWithoutSep([], sep);
  }

  /** The whitespace characters of Python's `str.isspace`. */
  predicate IsSpace(c: char) {
    var n := c as int;
    || (0x09 <= n <= 0x0d) || (0x1c <= n <= 0x20) || n == 0x85 || n == 0xa0
    || n == 0x1680 || (0x2000 <= n <= 0x200a) || n == 0x2028 || n == 0x2029
    || n == 0x202f || n == 0x205f || n == 0x3000
  }

  /** The line boundaries of Python's `str.splitlines`. */
  predicate IsLineBreak(c: char) {
    var n := c as int;
    || (0x0a <= n <= 0x0d) || (0x1c <= n <= 0x1e) || n == 0x85
    || n == 0x2028 || n == 0x2029
  }

  predicate AllSpace(s: string) {
    forall k :: 0 <= k < |s| ==> IsSpace(s[k])
  }

  function TrimEnd(s: string): (r: string)
    ensures StartsWith(s, r)
    ensures AllSpace(s[|r|..])
    ensures r == [] || !IsSpace(r[|r| - 1])
  {
    if s == [] || !IsSpace(s[|s| - 1]) then s
    else
      var r := TrimEnd(s[..|s| - 1]);
      assert s[|r|..] == s[..|s| - 1][|r|..] + [s[|s| - 1]];
      r
  }

  /**
    `str.strip()`: the text between the leading and the trailing whitespace.
    The result starts at `StripStart(s)`, nothing outside it but
    whitespace was dropped, and it neither starts nor ends with whitespace.
   */
  function Strip(s: string): (r: string)
    ensures StripStart(s) + |r| <= |s|
    ensures r == s[StripStart(s)..StripStart(s) + |r|]
    ensures AllSpace(s[..StripStart(s)]) && AllSpace(s[StripStart(s) + |r|..])
    ensures r == [] || (!IsSpace(r[0]) && !IsSpace(r[|r| - 1]))
  {
    var a := StripStart(s);
    var r := TrimEnd(s[a..]);
    assert s[a + |r|..] == s[a..][|r|..];
    r
  }

  function StripStart(s: string): (a: nat)
    ensures a <= |s|
    ensures AllSpace(s[..a])
    ensures a < |s| ==> !IsSpace(s[a])
  {
    FirstWhere(s, c => !IsSpace(c), 0)
  }

  predicate EndsWith(s: string, suffix: string) {
    |suffix| <= |s| && s[|s| - |suffix|..] == suffix
  }

  /**
    `r` is the relative path `b` placed inside directory `a`: what precedes
    `b` is `a` followed by at most one added `/`, it ends with `/` whenever
    `a` is not empty, and no `/` is added when `a` is empty or ends with one.
   */
  predicate JoinedUnder(r: string, a: string, b: string) {
    && EndsWith(r, b)
    && var dir := r[..|r| - |b|];
       && (dir == a || dir == a + "/")
       && (a != [] ==> EndsWith(dir, "/"))
       && (a == [] || EndsWith(a, "/") ==> dir == a)
  }

  /**
    POSIX `os.path.join(a, b)`: an absolute `b` replaces `a`; otherwise `b`
    is placed inside `a`, with a `/` between them only where one is missing.
   */
  function PathJoin(a: string, b: string): (r: string)
    ensures StartsWith(b, "/") ==> r == b
    ensures !StartsWith(b, "/") ==> JoinedUnder(r, a, b)
    ensures !StartsWith(b, "/") ==> StartsWith(r, a) && |r| <= |a| + 1 + |b|
  {
    if StartsWith(b, "/") then b
    else if a == [] || a[|a| - 1] == '/' then
      assert (a + b)[..|a|] == a;
      a + b
    else
      assert (a + "/" + b)[..|a| + 1] == a + "/";
      a + "/" + b
  }

  /**
    `os.path.basename(os.path.join(a, b))` is `b` for a non-empty file name
    `b` and a non-empty directory `a`: the last `/`-separated piece of the
    joined path is `b`.
   */
  lemma PathJoinBasename(a: string, b: string)
    requires a != [] && b != [] && '/' !in b
    ensures var parts := Split(PathJoin(a, b), '/'); parts[|parts| - 1] == b
  {
    assert !StartsWith(b, "/") by { assert b[0] in b; }
    SplitWithoutSep(b, '/');
    if a[|a| - 1] == '/' {
      var d := a[..|a| - 1];
      assert a + b == d + ['/'] + b;
      SplitByAppend(d, '/', b, Is('/'));
    } else {
      assert a + "/" + b == a + ['/'] + b;
      SplitByAppend(a, '/', b, Is('/'));
    }
  }

  /** `os.path.join(a, b, c, ...)` folds the two-argument join from the left. */
  function PathJoinAll(a: string, rest: seq<string>): string
    decreases |rest|
  {
    if rest == [] then a else PathJoinAll(PathJoin(a, rest[0]), rest[1..])
  }
}
